=== FILE: README.md ===
# Input, Toast and Sidebar components — a Dafny model

This project models the behaviour of a small React component library: a text
input field, toast notifications with their container, and a sliding sidebar
with a nested menu, wired together by a demo page. Rendering is abstracted
away. Each component becomes an immutable state record, pure transition
functions that return the new state together with the callbacks invoked, in
order, and pure functions for what is drawn. All proofs are over these
definitions.

Modules:

- `Optional` (`optional.dfy`): optional props (`None` is `undefined`) and JavaScript string truthiness.
- `MenuTree` (`menu_tree.dfy`): the recursive `MenuItem`, the rows `renderMenuItem` draws, and the shape of those rows.
- `SidebarPanel` (`sidebar_panel.dfy`): the expansion set, the open flag, the body scroll lock, and click dispatch.
- `InputField` (`input_field.dfy`): the field's state, its handlers, the value-sync effect and the derived flags.
- `Toast` (`toast.dfy`): toast defaults, the icon and colour lookups, and the auto-dismiss timer as a discrete automaton over integer milliseconds.
- `ToastContainer` (`toast_container.dfy`): the anchor lookup and the order-preserving map of entries to toasts.
- `App` (`app.dfy`): the page state (sidebar flag, toast list, form record), its events, and lemmas that compose the components.

Behaviour of the code worth noting:

- The input re-synchronises its value only when the `value` prop changes, because the effect depends on `[value]`. If the parent keeps the same `value` after an edit, the edit stays on screen (`InputField.ControlledResync`).
- On the first render an empty `value` falls through to `defaultValue`. The sync effect then replaces it by `""` (`InputField.EmptyValueFallsThrough`).
- The toast effect depends on `[duration, id, onClose]`. The page passes `removeToast`, a new closure on every render. So every change to the page state restarts the timers of all visible toasts from that moment (`Toast.RerenderRestartsOnlyOnNewDeps`). A toast therefore closes at least `duration` ms after mounting, not exactly then.
- Toasts are stacked oldest first: `addToast` appends and the container maps in list order.
- `removeToast` ignores an empty id. An entry whose random id came out empty can only be removed by "Clear All" (`App.EmptyIdNeverRemoved`).
- Enumerations (`type`, `position`) are closed datatypes, so an unknown value cannot occur in the model.
- A menu item's absent `children` and an empty `children` list behave the same in `renderMenuItem`, so both are the empty sequence.
- Clicks on elements that are not drawn do nothing: a closed sidebar, a hidden clear button, a hidden eye button. Hiding and removal are taken as instant, at the end of their exit animation (see "## Left out"). A disabled `<input>` gets no typing or focus events from the host. The eye button is never disabled.

## Model

| member | source | states |
|---|---|---|
| `MenuTree.RenderItem` | src/components/Sidebar/Sidebar.tsx:39-92 | the item's own row (`RowOf`: its id, text and icon, its depth, padding `depth*16+16`, and a chevron at 90 degrees exactly for an expanded branch) comes first; later rows are strictly deeper and exist only when the item is a branch in the expansion set; there are no more rows than nodes; the rows are `Nested` (only expanded branches open, and an opening row is followed by rows one level deeper). Which rows follow is stated by `ItemIsReachableOutline` and `ExpandedBranchShowsChildren` |
| `MenuTree.ExpandedBranchShowsChildren` | src/components/Sidebar/Sidebar.tsx:78-88 | below an expanded branch, the rows one level deeper are exactly its children's own rows, one per child in list order |
| `MenuTree.RenderItems` | src/components/Sidebar/Sidebar.tsx:86 | siblings yield at least one row each and no more rows than nodes, and their rows together are `Nested` at the siblings' level; which rows is stated by `RenderIsReachableOutline` |
| `MenuTree.Outline` | src/components/Sidebar/Sidebar.tsx:39-92 | the independent reference: every node of the forest in pre-order, one entry per node, each marked reachable iff all its proper ancestors are in the expansion set |
| `MenuTree.RenderIsReachableOutline` | src/components/Sidebar/Sidebar.tsx:39-92 | the rendered rows are exactly the rows of the reachable nodes, in pre-order, one row per such node; under a collapsed ancestor nothing is drawn |
| `MenuTree.ItemIsReachableOutline` | src/components/Sidebar/Sidebar.tsx:39-92 | the same for one item: its rows are its reachable nodes' rows in pre-order |
| `MenuTree.TopLevelRows` | src/components/Sidebar/Sidebar.tsx:132 | the rows at the siblings' level are exactly one row per sibling, in list order |
| `MenuTree.CollapsedShowsTopLevel` | src/components/Sidebar/Sidebar.tsx:78 | when no branch id is in the expansion set, only the siblings' own rows are drawn |
| `MenuTree.ExpandedShowsAll` | src/components/Sidebar/Sidebar.tsx:78-88 | when every branch id is expanded, the rows are those of every node of the tree in pre-order, exactly one per node |
| `MenuTree.RenderReadsOnlyBranchIds` | src/components/Sidebar/Sidebar.tsx:40-41 | rendering reads the expansion set only at branch ids: two sets that agree there draw the same rows |
| `SidebarPanel.ToggleExpanded` | src/components/Sidebar/Sidebar.tsx:29-37 | flips the membership of the clicked id; every other id keeps its membership |
| `SidebarPanel.ToggleTwice` | src/components/Sidebar/Sidebar.tsx:29-37 | toggling the same id twice restores the expansion set |
| `SidebarPanel.ToggleForeignIdKeepsRows` | src/components/Sidebar/Sidebar.tsx:29-41 | toggling an id that is not a branch of the tree changes no drawn row |
| `SidebarPanel.Mount` | src/components/Sidebar/Sidebar.tsx:15-27 | the expansion set starts empty; the effect writes the body overflow `hidden` when mounted open and `unset` when mounted closed, overwriting the page's own value either way, so the scroll is locked exactly when open |
| `SidebarPanel.SetOpen` | src/components/Sidebar/Sidebar.tsx:17-27 | a new `isOpen` keeps the expansion set; the overflow effect reruns only when `isOpen` changed, and then leaves `hidden` for open and `unset` for closed; it keeps "scroll locked iff open" |
| `SidebarPanel.Unmount` | src/components/Sidebar/Sidebar.tsx:24-26 | the cleanup always leaves the body overflow `unset` |
| `SidebarPanel.ClickActionOf` | src/components/Sidebar/Sidebar.tsx:51-58 | a branch click toggles its own id and never navigates; a leaf with a non-empty `href` navigates to exactly that href; any other leaf does nothing |
| `SidebarPanel.Handle` | src/components/Sidebar/Sidebar.tsx:94-132 | a closed sidebar reacts to nothing; the overlay and the close button both request `onClose`; a branch click toggles and emits nothing; a leaf emits navigation only for a truthy href; the sidebar never changes its own open flag or the scroll lock |
| `SidebarPanel.VisibleRows` | src/components/Sidebar/Sidebar.tsx:94-138 | nothing is drawn when closed; when open, the rows are exactly those of the reachable nodes of the menu in pre-order, every top-level item has a row at depth 0 in order, and the rows are `Nested` under the current expansion set |
| `SidebarPanel.ExpansionChangesOnlyByToggle` | src/components/Sidebar/Sidebar.tsx:15-37 | over any sequence of clicks and open/close re-renders without a branch click, the expansion set is unchanged and the scroll lock tracks the open flag |
| `SidebarPanel.ReopenShowsSameRows` | src/components/Sidebar/Sidebar.tsx:96-132 | closing and reopening the sidebar shows the same rows as before |
| `SidebarPanel.ExamplePanels` | src/components/Sidebar/Sidebar.tsx:29-58 | on a two-entry menu: opening gives an empty expansion set; a click on the branch expands it; a second click collapses it; a click on the link requests navigation to "/dashboard" |
| `SidebarPanel.ExampleRows` | src/components/Sidebar/Sidebar.tsx:39-92 | on the same menu: with the branch collapsed, 2 rows at depth 0; with it expanded, 4 rows, and the children sit at depth 1 with padding 32 |
| `InputField.InitialState` | src/components/Input/Input.tsx:26-28 | the first value is `value` if truthy, else `defaultValue` if truthy, else `""`; the password is masked and the field is unfocused |
| `InputField.SyncValue` | src/components/Input/Input.tsx:31-35 | a defined `value` becomes the internal value exactly; an undefined one changes nothing |
| `InputField.Mount` | src/components/Input/Input.tsx:26-35 | after mounting, a defined `value` is shown exactly, otherwise the initial state stands; either way the field starts masked and unfocused |
| `InputField.Rerender` | src/components/Input/Input.tsx:31-35 | a re-render resyncs only when `value` changed and is defined; otherwise the state is kept |
| `InputField.HandleChange` | src/components/Input/Input.tsx:37-41 | typed text becomes the value, and `onChange(text)` is called once when a handler is given |
| `InputField.HandleClear` | src/components/Input/Input.tsx:43-48 | the value becomes `""`; the calls are exactly `onChange("")`, then `onClear()`, each only when its handler is given, then always a focus request |
| `InputField.HandleFocus` | src/components/Input/Input.tsx:50-53 | focus sets the focused flag and calls `onFocus` when given |
| `InputField.HandleBlur` | src/components/Input/Input.tsx:55-58 | blur clears the focused flag and calls `onBlur` when given |
| `InputField.TogglePassword` | src/components/Input/Input.tsx:137 | the eye button flips password reveal and leaves the value and focus alone |
| `InputField.RenderedType` | src/components/Input/Input.tsx:83 | the element's type is `text` iff the field is text, or is a revealed password; otherwise it is the field's type |
| `InputField.Dispatch` | src/components/Input/Input.tsx:84-142 | the clear click runs `handleClear` exactly when its button is drawn (`ShowClearButton`: enabled, non-empty value, field not disabled); the eye click toggles exactly when its button is drawn (`ShowPasswordButton`: a password field with the toggle enabled); on an enabled field typing, focus and blur run `handleChange`, `handleFocus` and `handleBlur`, and a disabled field ignores them; only typing and clear change the value, only focus and blur change the focused flag, and only the eye button changes the reveal flag |
| `InputField.FocusThenBlur` | src/components/Input/Input.tsx:50-58 | on an enabled field, focus then blur sets and then clears the focused flag, leaves the value and reveal flag unchanged, and calls `onFocus` then `onBlur`, each when given |
| `InputField.ClearEmptiesAndHidesButton` | src/components/Input/Input.tsx:43-85 | after a clear click the value is empty, the clear button (`ShowClearButton`) disappears, and the calls are exactly change("") and clear, each when given, then a focus request |
| `InputField.TypingDrawsClearButton` | src/components/Input/Input.tsx:85 | after typing into an enabled field, the clear button is drawn iff the text is non-empty and the button is enabled (default true) |
| `InputField.PasswordToggleInvolution` | src/components/Input/Input.tsx:83-84 | on a field with the eye button, two clicks restore the state and one click switches the type between masked and text |
| `InputField.ErrorSupersedesHint` | src/components/Input/Input.tsx:146-168 | the error line (`ShowError`, a non-empty error) and the hint (`ShowHint`) are never both shown, and a non-empty hint shows one of the two |
| `InputField.LabelCarriesRequiredMark` | src/components/Input/Input.tsx:89-98 | documents the draw conditions as the source writes them: the label (`ShowLabel`) for a non-empty label text, the required mark (`ShowRequiredMark`) only inside it for a required field; this unfolds the two predicates and adds no further property |
| `InputField.EmptyValueFallsThrough` | src/components/Input/Input.tsx:26-35 | with `value` empty and `defaultValue` non-empty, the first render shows the default and the mounted field shows `""` |
| `InputField.ControlledResync` | src/components/Input/Input.tsx:31-41 | after an edit, a changed `value` overrides it, and an unchanged `value` keeps the edited text |
| `Toast.Defaults` | src/components/Toast/Toast.tsx:6-12 | with those props omitted, a toast is `info` with the info icon, lasts 5000 ms with a progress bar (`ProgressBarShown`, drawn for `duration > 0`), and has a close button |
| `Toast.LookupsAgree` | src/components/Toast/Toast.tsx:26-47 | the icon (`IconOf`) and colour (`PanelHue`, `IconHue`) lookups are total, the panel and icon colours agree in hue, and each lookup tells the four types apart |
| `Toast.Schedule` | src/components/Toast/Toast.tsx:16-21 | a timer is scheduled iff `duration > 0`, with its deadline `duration` ms after now |
| `Toast.Cleanup` | src/components/Toast/Toast.tsx:22 | cleanup cancels a pending timer, leaves any other timer as it was, and never leaves one pending |
| `Toast.Mount` | src/components/Toast/Toast.tsx:16-24 | a mounted toast has a pending timer exactly when its progress bar is drawn (`duration > 0`) |
| `Toast.Notify` | src/components/Toast/Toast.tsx:19 | `onClose?.(id)` is at most one call, made iff a handler is present, and it carries the toast's own id |
| `Toast.StepOf` | src/components/Toast/Toast.tsx:16-82 | an unmounted toast reacts to nothing; unmounting cancels the timer and calls nothing; a re-render takes the new props and calls nothing, keeps the timer when duration, id and handler are unchanged, and otherwise replaces it by the new effect's schedule (none for a non-positive duration); a close click on a mounted toast changes nothing and calls `onClose(id)` iff the button is drawn and a handler is present; every call carries the toast's own id and handler; one event makes at most one call |
| `Toast.TimerFiresAtMostOnce` | src/components/Toast/Toast.tsx:17-23 | without re-renders, any event sequence makes at most one timer call, and none when no timer is armed |
| `Toast.NoSelfCloseWithoutDuration` | src/components/Toast/Toast.tsx:17 | a toast with no armed timer, re-rendered only with non-positive durations, never closes itself |
| `Toast.SilentAfterUnmount` | src/components/Toast/Toast.tsx:22-24 | after unmounting (the end of the exit animation), no event causes any call |
| `Toast.TimerFiresOnceWithOwnId` | src/components/Toast/Toast.tsx:17-20 | for a mounted toast with `duration > 0` and a handler, under any ticks and close clicks: exactly one timer call when some tick reaches the deadline and none otherwise; every prefix before the first such tick makes no timer call; every call carries the toast's own id and handler |
| `Toast.PendingFiresIffReached` | src/components/Toast/Toast.tsx:17-20 | a pending timer makes exactly one call when some tick reaches its deadline and none otherwise, whatever ticks and close clicks come |
| `Toast.LocalRunKeepsProps` | src/components/Toast/Toast.tsx:16-77 | ticks and close clicks never change the props, and every call they cause carries the toast's own id and handler |
| `Toast.RemovedBeforeDeadlineNeverFires` | src/components/Toast/Toast.tsx:22-24 | a toast removed right after mounting never makes a timer call, whatever events follow |
| `Toast.CloseButtonCallsOwnId` | src/components/Toast/Toast.tsx:73-77 | after any events that do not remove it, the toast is still mounted and a close click calls `onClose(id)` with its current id iff the button is drawn (default true) and a handler is present, leaving the timer and props unchanged |
| `Toast.StaysMounted` | src/components/Toast/Toast.tsx:16-24 | without removal, no tick, click or re-render unmounts a toast |
| `Toast.RerenderRestartsOnlyOnNewDeps` | src/components/Toast/Toast.tsx:16-24 | a re-render with the same duration, id and handler keeps the timer; changed dependencies clear it and schedule the new effect's timer from the re-render's time, or none (not armed) for a non-positive duration |
| `Toast.RerenderToNoDurationCancels` | src/components/Toast/Toast.tsx:16-24 | an armed toast re-rendered with new dependencies and a non-positive duration never makes a timer call afterwards, under any ticks, close clicks and re-renders keeping the duration non-positive |
| `Toast.TitleOnlyWhenGiven` | src/components/Toast/Toast.tsx:67-69 | documents the draw condition as the source writes it: the title heading (`TitleShown`) for a non-empty `title`; this unfolds the predicate and adds no further property (`App.DemoTitles` applies it) |
| `ToastContainer.AnchorsAreExact` | src/components/Toast/ToastContainer.tsx:14-24 | the six positions map (`AnchorOf`) to six distinct anchors, every anchor belongs to one of them, and the default is top-right |
| `ToastContainer.RenderToasts` | src/components/Toast/ToastContainer.tsx:29-35 | one toast per entry, in list order and none dropped; each is its entry with `onClose` set to `onRemove` |
| `ToastContainer.Render` | src/components/Toast/ToastContainer.tsx:12-37 | the stack is placed at the anchor of the position (top-right by default) and holds one toast per entry, in list order, each its entry with `onClose` set to `onRemove` |
| `ToastContainer.RenderKeepsOrder` | src/components/Toast/ToastContainer.tsx:29-35 | rendering distributes over concatenation, so appended entries are drawn after older ones |
| `ToastContainer.EntriesCloseThroughOnRemove` | src/components/Toast/ToastContainer.tsx:32-33 | each drawn toast closes through `onRemove`, keeps its entry's id, and differs from its entry in `onClose` only |
| `App.AddToast` | src/App.tsx:100-103 | appends exactly one entry carrying the new id and the other given fields, and keeps the existing entries in order |
| `App.Without` | src/App.tsx:107 | keeps exactly the entries whose id differs from the given one, and never grows the list |
| `App.RemoveToast` | src/App.tsx:105-109 | an undefined or empty id leaves the list unchanged; a non-empty id keeps exactly the entries not carrying it |
| `App.WithoutConcat` | src/App.tsx:107 | removal distributes over concatenation, so the kept entries stay in order |
| `App.AddThenRemove` | src/App.tsx:100-107 | adding a toast under a fresh non-empty id and removing that id restores the previous list |
| `App.RemoveIdempotent` | src/App.tsx:105-109 | removing an id twice is the same as removing it once |
| `App.RemoveUniqueEntry` | src/App.tsx:105-109 | removing a unique non-empty id deletes exactly that entry and nothing else moves |
| `App.EmptyIdNeverRemoved` | src/App.tsx:101-107 | an entry added under the empty id survives removal by that id |
| `App.HandleInputChange` | src/App.tsx:111-113 | sets only `field` to the value, adding the key if needed; every other field keeps its value |
| `App.Step` | src/App.tsx:91-336 | both open buttons set the sidebar flag, `onClose` clears it, clear-all empties the list; a demo button appends exactly its demo toast under the new id; a toast's close runs `removeToast` with its id; a field edit runs `handleInputChange`; each piece of state changes only through its own events |
| `App.InitialPage` | src/App.tsx:92-98 | the page (`Init`) starts with the sidebar closed, no toasts, and an empty email, password and search |
| `App.OverlayClickClosesSidebar` | src/App.tsx:324-329 | the open sidebar's overlay requests close; the page then closes it, which unlocks scrolling and keeps the expanded branches |
| `App.DemoTitles` | src/App.tsx:212-258 | of the four demo toasts, only the info one has no title heading |
| `App.LateCloseIsHarmless` | src/App.tsx:105-109 | an `onClose(id)` for an entry no longer in the list changes nothing on the page |
| `App.ErrorDemoNeverAutoDismisses` | src/App.tsx:225-235 | the error demo toast (`duration: 0`) has no progress bar and never closes itself |
| `App.TimerCloseRemovesOwnEntry` | src/App.tsx:331-336 | when a drawn toast's timer fires, `removeToast` gets that toast's id and deletes exactly its entry |
| `App.PasswordFieldStartsMasked` | src/App.tsx:174-182 | the page's controlled password field mounts masked and unfocused showing the stored text, draws the eye button, and has a label without a required mark |
| `App.ControlledFieldRoundTrip` | src/App.tsx:164-172 | typing into the controlled email field reports the text; the page stores it; and the re-rendered field shows exactly the stored text |
| `App.ControlledFieldClear` | src/App.tsx:164-172 | clearing the controlled email field reports `""` and a focus request, empties the stored email, and the field shows `""` |

## Left out

- Exit animations: `AnimatePresence` keeps a removed toast (src/components/Toast/ToastContainer.tsx:28-35), a hidden clear button (src/components/Input/Input.tsx:115-124) and a closing sidebar panel (src/components/Sidebar/Sidebar.tsx:95-112) mounted and clickable until their exit animation ends. In that window a removed toast's timer can still call `onClose(id)`, which `removeToast` then ignores (`App.LateCloseIsHarmless`), and a second clear click runs `handleClear` again. The model takes removal and hiding as instant: `Toast`'s `Unmount` event is the end of the exit animation, and `Dispatch` and `Handle` ignore clicks on elements no longer drawn.
- Animation (framer-motion springs, fades, height transitions, hover and tap effects, the progress bar's `duration / 1000` seconds): presentation only, and floating point.
- Tailwind class strings (`sizeClasses`, `variantClasses`, the colour and position tables, the focus shadow and the error border): opaque styling. Only what the lookups distinguish is kept, as hues and anchors.
- lucide icons and `icon` fields are opaque. Menu icons are a `nat` handle; toast icons are an enumeration of names.
- `Math.random().toString(36).substr(2, 9)` (src/App.tsx:101) is a nondeterministic foreign call. The new id is a parameter, and freshness is a precondition of the round-trip lemma only.
- Real `setTimeout`/`clearTimeout` timing is replaced by integer-millisecond `Tick` events. Browser clamping of very long delays is not modelled. So is React's scheduling, batching and effect ordering, including the stale read of `expandedItems` when clicks are batched; events are sequential, with a re-render between them.
- `document.body.style.overflow` is an abstract flag, and `console.log` navigation is an emitted `NavigationRequested` signal.
- The browser's reaction to the focus request after a clear (a focus event reaching `handleFocus`) is not chained automatically. It is a separate `FocusIn` event.
- Which closure the page passes as `onRemove` on each render is not tracked in `App`. `Toast` takes the handler identity as part of its props, and `Toast.RerenderRestartsOnlyOnNewDeps` states what a new one does.
- Props without behaviour: sidebar `title`, `width` and class names; input `placeholder`, `size`, `variant`, `className`; toast `message`, which is only displayed, and `className`. The `position` field of a toast entry is never read by the toast.
- `MenuItem.isExpanded` is never read by the sidebar and is omitted. React `key` handling for duplicate ids is not modelled.
- Storybook stories, `src/components/index.ts` (re-exports) and the `types.ts` declarations are not modelled, except as the datatypes here. `ToastContextValue` is declared but never implemented.

=== FILE: app.dfy ===
/** The demo page that owns all mutable state: the sidebar flag, the list of
    active toasts and the form record, each changed only by its events. */
module App {
  import opened Optional
  import opened Toast
  import ToastContainer
  import InputField
  import SidebarPanel

  datatype AppState = AppState(sidebarOpen: bool, toasts: seq<ToastProps>, formData: map<string, string>)

  function Init(): AppState {
    AppState(false, [], map["email" := "", "password" := "", "search" := ""])
  }

  /** No entry of the list carries `id`. */
  predicate FreshId(toasts: seq<ToastProps>, id: string) {
    forall i :: 0 <= i < |toasts| ==> toasts[i].id != Some(id)
  }

  /** `addToast`: one new entry with the new id, after all existing ones. */
  function AddToast(toasts: seq<ToastProps>, toast: ToastProps, id: string): (r: seq<ToastProps>)
    ensures |r| == |toasts| + 1
    ensures r[..|toasts|] == toasts
    ensures r[|toasts|].id == Some(id) && r[|toasts|].(id := toast.id) == toast
  {
    toasts + [toast.(id := Some(id))]
  }

  /** The entries whose id is not `id`, in their order. */
  function Without(toasts: seq<ToastProps>, id: string): (r: seq<ToastProps>)
    ensures forall t :: t in r <==> t in toasts && t.id != Some(id)
    ensures |r| <= |toasts|
  {
    if |toasts| == 0 then []
    else (if toasts[0].id == Some(id) then [] else [toasts[0]]) + Without(toasts[1..], id)
  }

  /** `removeToast`: a non-empty id removes every entry carrying it; an
      undefined or empty id changes nothing. */
  function RemoveToast(toasts: seq<ToastProps>, id: Option<string>): (r: seq<ToastProps>)
    ensures !Truthy(id) ==> r == toasts
    ensures Truthy(id) ==> forall t :: t in r <==> t in toasts && t.id != id
  {
    if Truthy(id) then Without(toasts, id.value) else toasts
  }

  /** Removal keeps the order of what it keeps: it distributes over
      concatenation. */
  lemma {:induction false} WithoutConcat(a: seq<ToastProps>, b: seq<ToastProps>, id: string)
    ensures Without(a + b, id) == Without(a, id) + Without(b, id)
  {
    if |a| == 0 {
      assert a + b == b;
    } else {
      assert (a + b)[1..] == a[1..] + b;
      WithoutConcat(a[1..], b, id);
    }
  }

  /** Removing an id nobody carries changes nothing. */
  lemma {:induction false} WithoutFresh(toasts: seq<ToastProps>, id: string)
    requires FreshId(toasts, id)
    ensures Without(toasts, id) == toasts
  {
    if |toasts| > 0 {
      WithoutFresh(toasts[1..], id);
      assert toasts == [toasts[0]] + toasts[1..];
    }
  }

  /** Adding a toast under a fresh non-empty id and removing that id gives
      back the list before. */
  lemma AddThenRemove(toasts: seq<ToastProps>, toast: ToastProps, id: string)
    requires id != "" && FreshId(toasts, id)
    ensures RemoveToast(AddToast(toasts, toast, id), Some(id)) == toasts
  {
    WithoutConcat(toasts, [toast.(id := Some(id))], id);
    WithoutFresh(toasts, id);
    assert Without([toast.(id := Some(id))], id) == [];
  }

  /** Removing twice is removing once. */
  lemma RemoveIdempotent(toasts: seq<ToastProps>, id: Option<string>)
    ensures RemoveToast(RemoveToast(toasts, id), id) == RemoveToast(toasts, id)
  {
    if Truthy(id) {
      WithoutFresh(Without(toasts, id.value), id.value);
    }
  }

  /** A slice that leaves out the entry at `i` does not carry its unique id. */
  lemma FreshSlice(toasts: seq<ToastProps>, i: nat, lo: nat, hi: nat)
    requires i < |toasts| && toasts[i].id.Some? && lo <= hi <= |toasts| && (hi <= i || i < lo)
    requires forall j :: 0 <= j < |toasts| && j != i ==> toasts[j].id != toasts[i].id
    ensures FreshId(toasts[lo..hi], toasts[i].id.value)
  {
    forall k | 0 <= k < hi - lo ensures toasts[lo..hi][k].id != toasts[i].id {
      assert toasts[lo..hi][k] == toasts[lo + k];
    }
  }

  /** Removing the id of the one entry between two parts that do not carry
      it drops exactly that entry. */
  lemma WithoutAround(a: seq<ToastProps>, x: ToastProps, b: seq<ToastProps>, id: string)
    requires FreshId(a, id) && FreshId(b, id) && x.id == Some(id)
    ensures Without(a + [x] + b, id) == a + b
  {
    WithoutConcat(a + [x], b, id);
    WithoutConcat(a, [x], id);
    WithoutFresh(a, id);
    WithoutFresh(b, id);
    assert Without([x], id) == [];
    assert a + [] == a;
  }

  /** An entry whose id is the only one of its kind is removed by its id and
      nothing else moves. */
  lemma RemoveUniqueEntry(toasts: seq<ToastProps>, i: nat)
    requires i < |toasts| && Truthy(toasts[i].id)
    requires forall j :: 0 <= j < |toasts| && j != i ==> toasts[j].id != toasts[i].id
    ensures RemoveToast(toasts, toasts[i].id) == toasts[..i] + toasts[i + 1..]
  {
    var id := toasts[i].id.value;
    FreshSlice(toasts, i, 0, i);
    FreshSlice(toasts, i, i + 1, |toasts|);
    assert toasts[0..i] == toasts[..i] && toasts[i + 1..|toasts|] == toasts[i + 1..];
    assert toasts == toasts[..i] + [toasts[i]] + toasts[i + 1..];
    WithoutAround(toasts[..i], toasts[i], toasts[i + 1..], id);
  }

  /** An entry added under the empty id can never be removed by id. */
  lemma EmptyIdNeverRemoved(toasts: seq<ToastProps>, toast: ToastProps)
    ensures RemoveToast(AddToast(toasts, toast, ""), Some("")) == AddToast(toasts, toast, "")
  {
  }

  /** `handleInputChange(field)(value)`: sets `field` to `value`, adding the
      key if absent, and keeps every other field. */
  function HandleInputChange(form: map<string, string>, field: string, value: string): (r: map<string, string>)
    ensures field in r && r[field] == value
    ensures r.Keys == form.Keys + {field}
    ensures forall k :: k in form && k != field ==> r[k] == form[k]
  {
    form[field := value]
  }

  /** The four buttons of the toast demo. */
  datatype DemoToast = SuccessDemo | ErrorDemo | WarningDemo | InfoDemo

  function DemoProps(d: DemoToast): ToastProps {
    match d
    case SuccessDemo => ToastProps(None, Some(Success), Some("Success!"), "Operation completed successfully.", Some(5000), None, None, None)
    case ErrorDemo => ToastProps(None, Some(Error), Some("Error"), "Something went wrong.", Some(0), None, None, None)
    case WarningDemo => ToastProps(None, Some(Warning), Some("Warning"), "Please review your input.", Some(7000), None, None, None)
    case InfoDemo => ToastProps(None, Some(Info), None, "Here's some helpful information.", Some(5000), None, None, None)
  }

  /** What happens on the page. `newId` stands for the random id a toast
      button draws. */
  datatype AppEvent =
    | MenuButtonClicked
    | SidebarDemoClicked
    | SidebarClosed
    | DemoToastClicked(demo: DemoToast, newId: string)
    | ToastClosed(id: Option<string>)
    | ClearAllClicked
    | FieldChanged(field: string, value: string)

  /** One event on the page state. Both open buttons open the sidebar, its
      `onClose` closes it, "Clear All Toasts" empties the list. */
  function Step(s: AppState, ev: AppEvent): (t: AppState)
    ensures (ev.MenuButtonClicked? || ev.SidebarDemoClicked?) ==> t == s.(sidebarOpen := true)
    ensures ev.SidebarClosed? ==> t == s.(sidebarOpen := false)
    ensures ev.ClearAllClicked? ==> t == s.(toasts := [])
    ensures ev.DemoToastClicked? ==>
              && |t.toasts| == |s.toasts| + 1 && t.toasts[..|s.toasts|] == s.toasts
              && t.toasts[|s.toasts|] == DemoProps(ev.demo).(id := Some(ev.newId))
    ensures ev.DemoToastClicked? ==> t.sidebarOpen == s.sidebarOpen && t.formData == s.formData
    ensures ev.ToastClosed? ==> t == s.(toasts := RemoveToast(s.toasts, ev.id))
    ensures ev.FieldChanged? ==> t == s.(formData := HandleInputChange(s.formData, ev.field, ev.value))
    ensures t.sidebarOpen != s.sidebarOpen ==> ev.MenuButtonClicked? || ev.SidebarDemoClicked? || ev.SidebarClosed?
    ensures t.toasts != s.toasts ==> ev.DemoToastClicked? || ev.ToastClosed? || ev.ClearAllClicked?
    ensures t.formData != s.formData ==> ev.FieldChanged?
  {
    match ev
    case MenuButtonClicked => s.(sidebarOpen := true)
    case SidebarDemoClicked => s.(sidebarOpen := true)
    case SidebarClosed => s.(sidebarOpen := false)
    case DemoToastClicked(d, id) => s.(toasts := AddToast(s.toasts, DemoProps(d), id))
    case ToastClosed(id) => s.(toasts := RemoveToast(s.toasts, id))
    case ClearAllClicked => s.(toasts := [])
    case FieldChanged(f, v) => s.(formData := HandleInputChange(s.formData, f, v))
  }

  /** The page starts with the sidebar closed, no toasts and an empty form. */
  lemma InitialPage()
    ensures !Init().sidebarOpen && Init().toasts == []
    ensures Init().formData.Keys == {"email", "password", "search"}
    ensures forall k :: k in Init().formData ==> Init().formData[k] == ""
  {
  }

  /** The overlay of the open sidebar asks to close; the page then closes it,
      which releases the scroll lock and keeps the expanded branches. */
  lemma OverlayClickClosesSidebar(s: AppState, p: SidebarPanel.Panel)
    requires s.sidebarOpen && p.isOpen
    ensures SidebarPanel.Handle(p, SidebarPanel.OverlayClicked).signals == [SidebarPanel.CloseRequested]
    ensures var t := Step(s, SidebarClosed);
            var q := SidebarPanel.SetOpen(p, t.sidebarOpen);
            && !t.sidebarOpen && q.bodyOverflow == SidebarPanel.Unset && q.expanded == p.expanded
  {
  }

  /** The error demo toast has no timer and no progress bar: only its close
      button or "Clear All" removes it. */
  lemma ErrorDemoNeverAutoDismisses(now: int, evs: seq<Event>)
    requires forall k :: 0 <= k < |evs| && evs[k].Rerender? ==> DurationOf(evs[k].props) <= 0
    ensures !ProgressBarShown(DemoProps(ErrorDemo))
    ensures TimerCalls(Run(Mount(DemoProps(ErrorDemo), now), evs).calls) == 0
  {
    NoSelfCloseWithoutDuration(Mount(DemoProps(ErrorDemo), now), evs);
  }

  /** Only the info demo toast comes without a title heading. */
  lemma DemoTitles(d: DemoToast)
    ensures TitleShown(DemoProps(d)) <==> d != InfoDemo
  {
  }

  /** A late `onClose(id)` for an entry already gone from the list, as an
      exiting toast's timer can make, changes nothing. */
  lemma LateCloseIsHarmless(s: AppState, id: string)
    requires FreshId(s.toasts, id)
    ensures Step(s, ToastClosed(Some(id))) == s
  {
    WithoutFresh(s.toasts, id);
  }

  /** When the timer of a drawn toast fires, the page's `removeToast`
      receives that toast's own id and removes exactly its entry. */
  lemma TimerCloseRemovesOwnEntry(s: AppState, i: nat, onRemove: Handler, t0: int, now: int)
    requires i < |s.toasts| && Truthy(s.toasts[i].id)
    requires forall j :: 0 <= j < |s.toasts| && j != i ==> s.toasts[j].id != s.toasts[i].id
    requires DurationOf(s.toasts[i]) > 0 && now >= t0 + DurationOf(s.toasts[i])
    ensures var shown := ToastContainer.RenderToasts(s.toasts, onRemove)[i];
            var calls := StepOf(Mount(shown, t0), Tick(now)).calls;
            && calls == [CloseCall(onRemove, s.toasts[i].id, TimerExpired)]
            && Step(s, ToastClosed(calls[0].id)).toasts == s.toasts[..i] + s.toasts[i + 1..]
  {
    RemoveUniqueEntry(s.toasts, i);
  }

  /** Props of the page's controlled email field. */
  function EmailField(value: string): InputField.InputProps {
    InputField.InputProps(
      Some(InputField.Email), Some(value), None, None, None, None,
      Some("Email Address"), Some("We'll never share your email with anyone else."),
      Some(true), None, InputField.Handlers(true, false, false, false))
  }

  /** Props of the page's controlled password field. */
  function PasswordField(value: string): InputField.InputProps {
    InputField.InputProps(
      Some(InputField.Password), Some(value), None, None, None, None,
      Some("Password"), None, Some(true), Some(true), InputField.Handlers(true, false, false, false))
  }

  /** The page's password field mounts masked and unfocused showing the stored
      text, draws the eye button, and labels itself without a required mark. */
  lemma PasswordFieldStartsMasked(value: string)
    ensures var p := PasswordField(value);
            var s := InputField.Mount(p);
            && s.inputValue == value && !s.isFocused
            && InputField.RenderedType(p, s) == InputField.Password
            && InputField.ShowPasswordButton(p)
            && InputField.ShowLabel(p) && !InputField.ShowRequiredMark(p)
  {
  }

  /** Typing into the controlled email field round-trips through the form
      record: the field reports the text, the page stores it, and the
      re-render leaves the field showing exactly the stored text. */
  lemma ControlledFieldRoundTrip(s: AppState, st: InputField.InputState, text: string)
    requires "email" in s.formData
    ensures var before := EmailField(s.formData["email"]);
            var o := InputField.Dispatch(before, st, InputField.Typed(text));
            var t := Step(s, FieldChanged("email", o.calls[0].value));
            && o.calls == [InputField.Changed(text)]
            && t.formData["email"] == text
            && InputField.Rerender(o.state, before, EmailField(t.formData["email"])).inputValue == t.formData["email"]
  {
  }

  /** Clearing the controlled email field empties the stored email too. */
  lemma ControlledFieldClear(s: AppState, st: InputField.InputState)
    requires "email" in s.formData
    requires InputField.ShowClearButton(EmailField(s.formData["email"]), st)
    ensures var before := EmailField(s.formData["email"]);
            var o := InputField.Dispatch(before, st, InputField.ClearClicked);
            var t := Step(s, FieldChanged("email", o.calls[0].value));
            && o.calls == [InputField.Changed(""), InputField.FocusRequested]
            && t.formData["email"] == ""
            && InputField.Rerender(o.state, before, EmailField(t.formData["email"])).inputValue == ""
  {
  }
}

=== FILE: input_field.dfy ===
/** The text field: its internal state, its event handlers with the callbacks
    they invoke, and the flags that decide what is drawn. */
module InputField {
  import opened Optional

  datatype InputType = Text | Password | Email | Number | Tel | Url | Search

  /** Which optional callbacks the parent supplied; an absent one is skipped. */
  datatype Handlers = Handlers(onChange: bool, onFocus: bool, onBlur: bool, onClear: bool)

  /** The props that carry behaviour. `None` is an omitted prop; the flags
      with a default get it from the accessors below. */
  datatype InputProps = InputProps(
    inputType: Option<InputType>,
    value: Option<string>,
    defaultValue: Option<string>,
    disabled: Option<bool>,
    required: Option<bool>,
    error: Option<string>,
    labelText: Option<string>,
    hint: Option<string>,
    showClearButton: Option<bool>,
    showPasswordToggle: Option<bool>,
    handlers: Handlers)

  function TypeOf(p: InputProps): InputType { p.inputType.GetOr(Text) }
  predicate IsDisabled(p: InputProps) { p.disabled.GetOr(false) }
  predicate IsRequired(p: InputProps) { p.required.GetOr(false) }
  predicate ClearButtonEnabled(p: InputProps) { p.showClearButton.GetOr(true) }
  predicate PasswordToggleEnabled(p: InputProps) { p.showPasswordToggle.GetOr(true) }

  /** The component's own state. */
  datatype InputState = InputState(inputValue: string, showPassword: bool, isFocused: bool)

  /** A callback invocation or DOM request the field makes, in order. */
  datatype Call = Changed(value: string) | Cleared | Focused | Blurred | FocusRequested

  /** The state after a handler ran, and what it invoked. */
  datatype Outcome = Outcome(state: InputState, calls: seq<Call>)

  /** State on the first render: `value || defaultValue || ''`, so an empty
      `value` falls through to `defaultValue`. */
  function InitialState(p: InputProps): (s: InputState)
    ensures !s.showPassword && !s.isFocused
    ensures Truthy(p.value) ==> s.inputValue == p.value.value
    ensures !Truthy(p.value) && Truthy(p.defaultValue) ==> s.inputValue == p.defaultValue.value
    ensures !Truthy(p.value) && !Truthy(p.defaultValue) ==> s.inputValue == ""
  {
    InputState(OrElse(p.value, OrElse(p.defaultValue, "")), false, false)
  }

  /** The value-sync effect: a defined `value` replaces the internal value;
      an undefined one leaves the state alone. */
  function SyncValue(s: InputState, value: Option<string>): (t: InputState)
    ensures value.Some? ==> t.inputValue == value.value
    ensures value.None? ==> t == s
    ensures t.showPassword == s.showPassword && t.isFocused == s.isFocused
  {
    match value
    case Some(v) => s.(inputValue := v)
    case None => s
  }

  /** The first render followed by its effects. */
  function Mount(p: InputProps): (s: InputState)
    ensures p.value.Some? ==> s.inputValue == p.value.value
    ensures p.value.None? ==> s == InitialState(p)
    ensures !s.showPassword && !s.isFocused
  {
    SyncValue(InitialState(p), p.value)
  }

  /** A re-render with new props. The sync effect depends on `value` only,
      so it runs only when `value` differs from the previous render's. */
  function Rerender(s: InputState, prev: InputProps, next: InputProps): (t: InputState)
    ensures prev.value == next.value ==> t == s
    ensures prev.value != next.value && next.value.Some? ==> t.inputValue == next.value.value
    ensures next.value.None? ==> t == s
    ensures t.showPassword == s.showPassword && t.isFocused == s.isFocused
  {
    if prev.value != next.value then SyncValue(s, next.value) else s
  }

  function Notify(present: bool, call: Call): seq<Call> {
    if present then [call] else []
  }

  /** The change handler: the typed text becomes the value and is reported. */
  function HandleChange(p: InputProps, s: InputState, text: string): (o: Outcome)
    ensures o.state == s.(inputValue := text)
    ensures o.calls == (if p.handlers.onChange then [Changed(text)] else [])
  {
    Outcome(s.(inputValue := text), Notify(p.handlers.onChange, Changed(text)))
  }

  /** The clear handler: the value becomes empty, then `onChange("")`,
      `onClear()` and a focus request follow, in that order. */
  function HandleClear(p: InputProps, s: InputState): (o: Outcome)
    ensures o.state == s.(inputValue := "")
    ensures |o.calls| >= 1 && o.calls[|o.calls| - 1] == FocusRequested
    ensures Changed("") in o.calls <==> p.handlers.onChange
    ensures Cleared in o.calls <==> p.handlers.onClear
    ensures o.calls == (if p.handlers.onChange then [Changed("")] else [])
                     + (if p.handlers.onClear then [Cleared] else [])
                     + [FocusRequested]
  {
    Outcome(s.(inputValue := ""),
            Notify(p.handlers.onChange, Changed("")) + Notify(p.handlers.onClear, Cleared) + [FocusRequested])
  }

  function HandleFocus(p: InputProps, s: InputState): (o: Outcome)
    ensures o.state == s.(isFocused := true)
    ensures o.calls == (if p.handlers.onFocus then [Focused] else [])
  {
    Outcome(s.(isFocused := true), Notify(p.handlers.onFocus, Focused))
  }

  function HandleBlur(p: InputProps, s: InputState): (o: Outcome)
    ensures o.state == s.(isFocused := false)
    ensures o.calls == (if p.handlers.onBlur then [Blurred] else [])
  {
    Outcome(s.(isFocused := false), Notify(p.handlers.onBlur, Blurred))
  }

  /** The eye button flips password reveal and invokes nothing. */
  function TogglePassword(s: InputState): (t: InputState)
    ensures t.showPassword != s.showPassword
    ensures t.inputValue == s.inputValue && t.isFocused == s.isFocused
  {
    s.(showPassword := !s.showPassword)
  }

  /** The `type` the `<input>` element gets: a revealed password is shown as
      text, every other field keeps its type. */
  function RenderedType(p: InputProps, s: InputState): (t: InputType)
    ensures t == Text <==> TypeOf(p) == Text || (TypeOf(p) == Password && s.showPassword)
    ensures t != Text ==> t == TypeOf(p)
  {
    if TypeOf(p) == Password && s.showPassword then Text else TypeOf(p)
  }

  /** The eye button is drawn for password fields unless turned off. */
  predicate ShowPasswordButton(p: InputProps) {
    TypeOf(p) == Password && PasswordToggleEnabled(p)
  }

  /** The clear button is drawn when enabled, the value is non-empty and the
      field is not disabled. */
  predicate ShowClearButton(p: InputProps, s: InputState) {
    ClearButtonEnabled(p) && s.inputValue != "" && !IsDisabled(p)
  }

  /** The error line is drawn for a non-empty `error`. */
  predicate ShowError(p: InputProps) { Truthy(p.error) }

  /** The hint is drawn for a non-empty `hint` unless an error is drawn. */
  predicate ShowHint(p: InputProps) { Truthy(p.hint) && !Truthy(p.error) }

  /** The label is drawn for a non-empty `label` (`labelText`); the required mark only
      inside it. */
  predicate ShowLabel(p: InputProps) { Truthy(p.labelText) }
  predicate ShowRequiredMark(p: InputProps) { Truthy(p.labelText) && IsRequired(p) }

  /** The label is drawn exactly for a non-empty label text, and the required
      mark exactly inside a drawn label of a required field. */
  lemma LabelCarriesRequiredMark(p: InputProps)
    ensures ShowLabel(p) <==> p.labelText.Some? && p.labelText.value != ""
    ensures ShowRequiredMark(p) <==> ShowLabel(p) && IsRequired(p)
    ensures p.required.None? ==> !ShowRequiredMark(p)
  {
  }

  /** Interaction with the rendered field. */
  datatype UserEvent = Typed(text: string) | ClearClicked | FocusIn | FocusOut | PasswordToggleClicked

  /** Routes an event to its handler. A click on a button that is not drawn
      does nothing; a disabled `<input>` receives no typing or focus events
      from the host. The eye button itself is never disabled. */
  function Dispatch(p: InputProps, s: InputState, ev: UserEvent): (o: Outcome)
    ensures ev.ClearClicked? && ShowClearButton(p, s) ==> o == HandleClear(p, s)
    ensures ev.ClearClicked? && !ShowClearButton(p, s) ==> o == Outcome(s, [])
    ensures ev.PasswordToggleClicked? ==>
              o == Outcome(if ShowPasswordButton(p) then TogglePassword(s) else s, [])
    ensures (ev.Typed? || ev.FocusIn? || ev.FocusOut?) && IsDisabled(p) ==> o == Outcome(s, [])
    ensures ev.Typed? && !IsDisabled(p) ==> o == HandleChange(p, s, ev.text)
    ensures ev.FocusIn? && !IsDisabled(p) ==> o == HandleFocus(p, s)
    ensures ev.FocusOut? && !IsDisabled(p) ==> o == HandleBlur(p, s)
    ensures o.state.isFocused != s.isFocused ==> ev.FocusIn? || ev.FocusOut?
    ensures o.state.showPassword != s.showPassword ==> ev.PasswordToggleClicked?
    ensures o.state.inputValue != s.inputValue ==> ev.Typed? || ev.ClearClicked?
  {
    match ev
    case Typed(text) => if IsDisabled(p) then Outcome(s, []) else HandleChange(p, s, text)
    case ClearClicked => if ShowClearButton(p, s) then HandleClear(p, s) else Outcome(s, [])
    case FocusIn => if IsDisabled(p) then Outcome(s, []) else HandleFocus(p, s)
    case FocusOut => if IsDisabled(p) then Outcome(s, []) else HandleBlur(p, s)
    case PasswordToggleClicked => Outcome(if ShowPasswordButton(p) then TogglePassword(s) else s, [])
  }

  /** After a click on the clear button the value is empty, the button is no
      longer drawn, and the callbacks ran in the order `handleClear` makes them. */
  lemma ClearEmptiesAndHidesButton(p: InputProps, s: InputState)
    requires ShowClearButton(p, s)
    ensures var o := Dispatch(p, s, ClearClicked);
            && o.state.inputValue == ""
            && !ShowClearButton(p, o.state)
            && o.calls == (if p.handlers.onChange then [Changed("")] else [])
                          + (if p.handlers.onClear then [Cleared] else [])
                          + [FocusRequested]
  {
  }

  /** Typing into an enabled field shows the clear button exactly when the
      text is non-empty and the button is not turned off. */
  lemma TypingDrawsClearButton(p: InputProps, s: InputState, text: string)
    requires !IsDisabled(p)
    ensures ShowClearButton(p, Dispatch(p, s, Typed(text)).state) <==> text != "" && ClearButtonEnabled(p)
  {
  }

  /** On an enabled field, focus followed by blur restores the focused flag,
      leaves the value and the reveal flag alone, and reports `onFocus` then
      `onBlur`, each when given. */
  lemma FocusThenBlur(p: InputProps, s: InputState)
    requires !IsDisabled(p)
    ensures var focused := Dispatch(p, s, FocusIn);
            var blurred := Dispatch(p, focused.state, FocusOut);
            && focused.state.isFocused && !blurred.state.isFocused
            && blurred.state == s.(isFocused := false)
            && focused.calls + blurred.calls
               == (if p.handlers.onFocus then [Focused] else []) + (if p.handlers.onBlur then [Blurred] else [])
  {
  }

  /** Two clicks on the eye button restore the state; one click switches a
      password field between masked and revealed. */
  lemma PasswordToggleInvolution(p: InputProps, s: InputState)
    requires ShowPasswordButton(p)
    ensures var once := Dispatch(p, s, PasswordToggleClicked).state;
            && Dispatch(p, once, PasswordToggleClicked).state == s
            && (RenderedType(p, once) == Text <==> RenderedType(p, s) == Password)
  {
  }

  /** The error supersedes the hint: never both, and a non-empty hint shows
      one of the two. */
  lemma ErrorSupersedesHint(p: InputProps)
    ensures !(ShowError(p) && ShowHint(p))
    ensures Truthy(p.hint) ==> ShowError(p) || ShowHint(p)
  {
  }

  /** An empty `value` falls through to `defaultValue` on the first render,
      and the sync effect then replaces it by the empty value. */
  lemma EmptyValueFallsThrough(p: InputProps)
    requires p.value == Some("") && Truthy(p.defaultValue)
    ensures InitialState(p).inputValue == p.defaultValue.value
    ensures Mount(p).inputValue == ""
  {
  }

  /** In controlled use a changed `value` overrides any edit; a re-render
      with the same `value` keeps the edit. */
  lemma ControlledResync(p: InputProps, s: InputState, text: string, next: InputProps)
    requires !IsDisabled(p) && next.value.Some?
    ensures var edited := Dispatch(p, s, Typed(text)).state;
            && (next.value != p.value ==> Rerender(edited, p, next).inputValue == next.value.value)
            && (next.value == p.value ==> Rerender(edited, p, next).inputValue == text)
  {
  }
}

=== FILE: menu_tree.dfy ===
/** The nested menu of the sidebar: the tree, its rows and how they are rendered. */
module MenuTree {
  import opened Optional

  /** An icon is an opaque renderable handle; only its presence matters here. */
  type IconHandle = nat

  /** A node of the navigation tree; `text` is the label shown. An absent
      `children` list behaves exactly like an empty one, so both are the empty
      sequence. */
  datatype MenuItem = MenuItem(
    id: string,
    text: string,
    icon: Option<IconHandle>,
    href: Option<string>,
    children: seq<MenuItem>)

  /** A node with at least one child: clicking it toggles, it never navigates. */
  predicate IsBranch(item: MenuItem) {
    |item.children| > 0
  }

  /** Degrees the chevron of an expanded branch is rotated by. */
  const ExpandedRotation := 90

  /** One visible row of the menu: the node it shows, its nesting level, its
      left padding in pixels and, for a branch, its chevron's rotation. */
  datatype Row = Row(
    id: string,
    text: string,
    icon: Option<IconHandle>,
    depth: nat,
    paddingLeft: int,
    chevron: Option<int>)
  {
    /** The row of an expanded branch: its children's rows follow it. */
    predicate Opens() {
      chevron == Some(ExpandedRotation)
    }
  }

  /** Left padding of a row: 16 pixels per nesting level plus 16. */
  function PaddingLeft(depth: nat): int {
    depth * 16 + 16
  }

  /** The row drawn for `item` itself at nesting level `depth`. */
  function RowOf(item: MenuItem, expanded: set<string>, depth: nat): Row {
    Row(item.id, item.text, item.icon, depth, PaddingLeft(depth),
        if IsBranch(item) then Some(if item.id in expanded then ExpandedRotation else 0) else None)
  }

  /** The shape every rendered block of rows has, starting at level `base`:
      rows are padded by their level, no row sits above `base`, the first sits
      at `base`, a row is followed by a deeper row exactly when it opens (and
      then by one exactly one level deeper), an opening row is never last, and
      only branches in the expansion set open. */
  predicate Nested(rows: seq<Row>, base: nat, expanded: set<string>) {
    && (forall j :: 0 <= j < |rows| ==> base <= rows[j].depth && rows[j].paddingLeft == PaddingLeft(rows[j].depth))
    && (|rows| > 0 ==> rows[0].depth == base)
    && (forall j :: 0 <= j < |rows| - 1 ==> rows[j + 1].depth <= rows[j].depth + 1)
    && (forall j :: 0 <= j < |rows| - 1 ==> (rows[j + 1].depth == rows[j].depth + 1 <==> rows[j].Opens()))
    && (forall j :: 0 <= j < |rows| && rows[j].Opens() ==> j + 1 < |rows| && rows[j].id in expanded)
  }

  /** Every row of the concatenation is a row of one of the two parts. */
  lemma ConcatIndex(a: seq<Row>, b: seq<Row>, j: nat)
    requires j < |a + b|
    ensures j < |a| ==> (a + b)[j] == a[j]
    ensures j >= |a| ==> (a + b)[j] == b[j - |a|]
  {
  }

  /** Two blocks starting at the same level join into one such block. */
  lemma NestedConcat(a: seq<Row>, b: seq<Row>, base: nat, expanded: set<string>)
    requires Nested(a, base, expanded) && Nested(b, base, expanded)
    ensures Nested(a + b, base, expanded)
  {
    var c := a + b;
    forall j | 0 <= j < |c|
      ensures base <= c[j].depth && c[j].paddingLeft == PaddingLeft(c[j].depth)
      ensures c[j].Opens() ==> j + 1 < |c| && c[j].id in expanded
    {
      ConcatIndex(a, b, j);
    }
    forall j | 0 <= j < |c| - 1
      ensures c[j + 1].depth <= c[j].depth + 1
      ensures c[j + 1].depth == c[j].depth + 1 <==> c[j].Opens()
    {
      ConcatIndex(a, b, j);
      ConcatIndex(a, b, j + 1);
    }
  }

  /** An opening row followed by a block one level deeper is a block. */
  lemma NestedUnder(own: Row, sub: seq<Row>, base: nat, expanded: set<string>)
    requires own.depth == base && own.paddingLeft == PaddingLeft(base)
    requires own.Opens() && own.id in expanded
    requires |sub| > 0 && Nested(sub, base + 1, expanded)
    ensures Nested([own] + sub, base, expanded)
  {
    var c := [own] + sub;
    forall j | 0 <= j < |c| - 1
      ensures c[j + 1].depth <= c[j].depth + 1
      ensures c[j + 1].depth == c[j].depth + 1 <==> c[j].Opens()
    {
      if j > 0 {
        assert c[j] == sub[j - 1] && c[j + 1] == sub[j];
      }
    }
  }

  /** Number of nodes of a forest. */
  function Size(items: seq<MenuItem>): nat
    decreases items
  {
    if |items| == 0 then 0 else SizeOf(items[0]) + Size(items[1..])
  }

  /** Number of nodes of a tree, the node itself included. */
  function SizeOf(item: MenuItem): nat
    decreases item
  {
    1 + Size(item.children)
  }

  /** The rows `renderMenuItem(item, depth)` draws: the item's own row, then,
      when it is a branch in the expansion set, its children's rows one level
      deeper. */
  function RenderItem(item: MenuItem, expanded: set<string>, depth: nat): (rows: seq<Row>)
    decreases item
    ensures 1 <= |rows| <= SizeOf(item)
    ensures rows[0] == RowOf(item, expanded, depth)
    ensures Nested(rows, depth, expanded)
    ensures forall j :: 1 <= j < |rows| ==> rows[j].depth > depth
    ensures !(IsBranch(item) && item.id in expanded) ==> |rows| == 1
  {
    var own := RowOf(item, expanded, depth);
    if IsBranch(item) && item.id in expanded then
      var sub := RenderItems(item.children, expanded, depth + 1);
      NestedUnder(own, sub, depth, expanded);
      [own] + sub
    else
      [own]
  }

  /** The rows of a list of siblings at level `depth`, in list order. */
  function RenderItems(items: seq<MenuItem>, expanded: set<string>, depth: nat): (rows: seq<Row>)
    decreases items
    ensures |items| <= |rows| <= Size(items)
    ensures Nested(rows, depth, expanded)
  {
    if |items| == 0 then
      []
    else
      var first := RenderItem(items[0], expanded, depth);
      var rest := RenderItems(items[1..], expanded, depth);
      NestedConcat(first, rest, depth, expanded);
      first + rest
  }

  /** The rows at exactly level `d`, in order. */
  function AtDepth(rows: seq<Row>, d: nat): seq<Row> {
    if |rows| == 0 then [] else (if rows[0].depth == d then [rows[0]] else []) + AtDepth(rows[1..], d)
  }

  lemma {:induction false} AtDepthConcat(a: seq<Row>, b: seq<Row>, d: nat)
    ensures AtDepth(a + b, d) == AtDepth(a, d) + AtDepth(b, d)
  {
    if |a| == 0 {
      assert a + b == b;
    } else {
      var head := if a[0].depth == d then [a[0]] else [];
      assert (a + b)[0] == a[0];
      assert (a + b)[1..] == a[1..] + b;
      assert AtDepth(a + b, d) == head + AtDepth(a[1..] + b, d);
      AtDepthConcat(a[1..], b, d);
      assert AtDepth(a, d) == head + AtDepth(a[1..], d);
    }
  }

  lemma {:induction false} AtDepthNone(rows: seq<Row>, d: nat)
    requires forall j :: 0 <= j < |rows| ==> rows[j].depth != d
    ensures AtDepth(rows, d) == []
  {
    if |rows| > 0 {
      AtDepthNone(rows[1..], d);
    }
  }

  /** One row per sibling, in list order, as `items.map(renderMenuItem)` draws
      them before any child rows are interleaved. */
  function TopRows(items: seq<MenuItem>, expanded: set<string>, depth: nat): seq<Row> {
    seq(|items|, i requires 0 <= i < |items| => RowOf(items[i], expanded, depth))
  }

  /** Of an item's rows only its own sits at its level. */
  lemma ItemAtOwnDepth(item: MenuItem, expanded: set<string>, depth: nat)
    ensures AtDepth(RenderItem(item, expanded, depth), depth) == [RowOf(item, expanded, depth)]
  {
    var rows := RenderItem(item, expanded, depth);
    assert rows == [rows[0]] + rows[1..];
    AtDepthConcat([rows[0]], rows[1..], depth);
    AtDepthNone(rows[1..], depth);
  }

  lemma TopRowsCons(items: seq<MenuItem>, expanded: set<string>, depth: nat)
    requires |items| > 0
    ensures TopRows(items, expanded, depth) == [RowOf(items[0], expanded, depth)] + TopRows(items[1..], expanded, depth)
  {
    var t := TopRows(items, expanded, depth);
    var u := [RowOf(items[0], expanded, depth)] + TopRows(items[1..], expanded, depth);
    assert |t| == |u|;
    forall k | 0 <= k < |t| ensures t[k] == u[k] {
      if k > 0 {
        assert items[1..][k - 1] == items[k];
      }
    }
  }

  /** Every sibling yields exactly one row at its own level, in list order, and
      every other row is deeper: the rows at level `depth` are the siblings'. */
  lemma {:induction false} TopLevelRows(items: seq<MenuItem>, expanded: set<string>, depth: nat)
    ensures AtDepth(RenderItems(items, expanded, depth), depth) == TopRows(items, expanded, depth)
  {
    if |items| > 0 {
      var first := RenderItem(items[0], expanded, depth);
      var rest := RenderItems(items[1..], expanded, depth);
      assert RenderItems(items, expanded, depth) == first + rest;
      AtDepthConcat(first, rest, depth);
      ItemAtOwnDepth(items[0], expanded, depth);
      TopLevelRows(items[1..], expanded, depth);
      TopRowsCons(items, expanded, depth);
    }
  }

  /** Of an expanded branch's rows, those one level below it are exactly its
      children's own rows, one per child in list order. */
  lemma ExpandedBranchShowsChildren(item: MenuItem, expanded: set<string>, depth: nat)
    requires IsBranch(item) && item.id in expanded
    ensures AtDepth(RenderItem(item, expanded, depth), depth + 1) == TopRows(item.children, expanded, depth + 1)
  {
    var own := RowOf(item, expanded, depth);
    var sub := RenderItems(item.children, expanded, depth + 1);
    assert RenderItem(item, expanded, depth) == [own] + sub;
    AtDepthSkipsHead(own, sub, depth + 1);
    TopLevelRows(item.children, expanded, depth + 1);
  }

  lemma AtDepthSkipsHead(head: Row, rest: seq<Row>, d: nat)
    requires head.depth != d
    ensures AtDepth([head] + rest, d) == AtDepth(rest, d)
  {
    assert ([head] + rest)[0] == head;
    assert ([head] + rest)[1..] == rest;
  }

  /** A node of the tree listed in pre-order: the row it is drawn as, and
      whether it is reachable, that is, whether every one of its proper
      ancestors is in the expansion set. */
  datatype OutlineEntry = OutlineEntry(row: Row, reachable: bool)

  /** Every node of a forest at level `depth`, in pre-order, whatever the
      expansion set; `reachable` says whether the forest's ancestors are all
      expanded. */
  function Outline(items: seq<MenuItem>, expanded: set<string>, depth: nat, reachable: bool): (o: seq<OutlineEntry>)
    decreases items
    ensures |o| == Size(items)
  {
    if |items| == 0 then []
    else OutlineOf(items[0], expanded, depth, reachable) + Outline(items[1..], expanded, depth, reachable)
  }

  /** Every node of a tree in pre-order: the node itself, then its children's
      trees one level deeper, reachable only through an expanded node. */
  function OutlineOf(item: MenuItem, expanded: set<string>, depth: nat, reachable: bool): (o: seq<OutlineEntry>)
    decreases item
    ensures |o| == SizeOf(item)
  {
    [OutlineEntry(RowOf(item, expanded, depth), reachable)]
      + Outline(item.children, expanded, depth + 1, reachable && item.id in expanded)
  }

  /** The rows of the reachable entries, in order. */
  function ReachableRows(o: seq<OutlineEntry>): seq<Row> {
    if |o| == 0 then [] else (if o[0].reachable then [o[0].row] else []) + ReachableRows(o[1..])
  }

  /** The rows of all entries, in order. */
  function AllRows(o: seq<OutlineEntry>): seq<Row> {
    if |o| == 0 then [] else [o[0].row] + AllRows(o[1..])
  }

  lemma {:induction false} ReachableRowsConcat(a: seq<OutlineEntry>, b: seq<OutlineEntry>)
    ensures ReachableRows(a + b) == ReachableRows(a) + ReachableRows(b)
  {
    if |a| == 0 {
      assert a + b == b;
    } else {
      assert (a + b)[0] == a[0];
      assert (a + b)[1..] == a[1..] + b;
      ReachableRowsConcat(a[1..], b);
    }
  }

  lemma {:induction false} AllRowsConcat(a: seq<OutlineEntry>, b: seq<OutlineEntry>)
    ensures AllRows(a + b) == AllRows(a) + AllRows(b)
  {
    if |a| == 0 {
      assert a + b == b;
    } else {
      assert (a + b)[0] == a[0];
      assert (a + b)[1..] == a[1..] + b;
      AllRowsConcat(a[1..], b);
    }
  }

  /** The renderer draws exactly the reachable nodes of the forest, in
      pre-order, one row each; below a collapsed ancestor nothing is drawn. */
  lemma {:induction false} RenderIsReachableOutline(items: seq<MenuItem>, expanded: set<string>, depth: nat, reachable: bool)
    ensures ReachableRows(Outline(items, expanded, depth, reachable))
         == (if reachable then RenderItems(items, expanded, depth) else [])
    decreases items
  {
    if |items| > 0 {
      ReachableRowsConcat(OutlineOf(items[0], expanded, depth, reachable), Outline(items[1..], expanded, depth, reachable));
      ItemIsReachableOutline(items[0], expanded, depth, reachable);
      RenderIsReachableOutline(items[1..], expanded, depth, reachable);
    }
  }

  lemma {:induction false} ItemIsReachableOutline(item: MenuItem, expanded: set<string>, depth: nat, reachable: bool)
    ensures ReachableRows(OutlineOf(item, expanded, depth, reachable))
         == (if reachable then RenderItem(item, expanded, depth) else [])
    decreases item
  {
    var head := OutlineEntry(RowOf(item, expanded, depth), reachable);
    var below := Outline(item.children, expanded, depth + 1, reachable && item.id in expanded);
    ReachableRowsConcat([head], below);
    assert ReachableRows([head]) == (if reachable then [head.row] else []);
    RenderIsReachableOutline(item.children, expanded, depth + 1, reachable && item.id in expanded);
    if !IsBranch(item) {
      assert below == [];
    }
  }

  /** Ids of the branches of a forest. */
  function BranchIds(items: seq<MenuItem>): set<string>
    decreases items
  {
    if |items| == 0 then {} else BranchIdsOf(items[0]) + BranchIds(items[1..])
  }

  /** Ids of the branches of a tree, the root included. */
  function BranchIdsOf(item: MenuItem): set<string>
    decreases item
  {
    (if IsBranch(item) then {item.id} else {}) + BranchIds(item.children)
  }

  /** With no branch expanded only the siblings themselves are shown. */
  lemma {:induction false} CollapsedShowsTopLevel(items: seq<MenuItem>, expanded: set<string>, depth: nat)
    requires BranchIds(items) !! expanded
    ensures RenderItems(items, expanded, depth) == TopRows(items, expanded, depth)
  {
    if |items| > 0 {
      CollapsedShowsTopLevel(items[1..], expanded, depth);
      assert TopRows(items, expanded, depth) == [RowOf(items[0], expanded, depth)] + TopRows(items[1..], expanded, depth);
    }
  }

  /** With every branch expanded each node of the forest has its row: the
      rows are those of every node, in pre-order. */
  lemma {:induction false} ExpandedShowsAll(items: seq<MenuItem>, expanded: set<string>, depth: nat)
    requires BranchIds(items) <= expanded
    ensures RenderItems(items, expanded, depth) == AllRows(Outline(items, expanded, depth, true))
    ensures |RenderItems(items, expanded, depth)| == Size(items)
    decreases items
  {
    if |items| > 0 {
      ExpandedItemShowsAll(items[0], expanded, depth);
      ExpandedShowsAll(items[1..], expanded, depth);
      AllRowsConcat(OutlineOf(items[0], expanded, depth, true), Outline(items[1..], expanded, depth, true));
    }
  }

  lemma {:induction false} ExpandedItemShowsAll(item: MenuItem, expanded: set<string>, depth: nat)
    requires BranchIdsOf(item) <= expanded
    ensures RenderItem(item, expanded, depth) == AllRows(OutlineOf(item, expanded, depth, true))
    ensures |RenderItem(item, expanded, depth)| == SizeOf(item)
    decreases item
  {
    var head := OutlineEntry(RowOf(item, expanded, depth), true);
    var below := Outline(item.children, expanded, depth + 1, true && item.id in expanded);
    AllRowsConcat([head], below);
    assert AllRows([head]) == [head.row];
    ExpandedShowsAll(item.children, expanded, depth + 1);
    if !IsBranch(item) {
      assert below == [];
    }
  }

  /** Rendering reads the expansion set only at the ids of branches: two sets
      that agree there draw the same rows. */
  lemma {:induction false} RenderReadsOnlyBranchIds(items: seq<MenuItem>, e1: set<string>, e2: set<string>, depth: nat)
    requires e1 * BranchIds(items) == e2 * BranchIds(items)
    ensures RenderItems(items, e1, depth) == RenderItems(items, e2, depth)
    decreases items
  {
    if |items| > 0 {
      AgreeOnSubset(e1, e2, BranchIds(items), BranchIdsOf(items[0]));
      AgreeOnSubset(e1, e2, BranchIds(items), BranchIds(items[1..]));
      ItemReadsOnlyBranchIds(items[0], e1, e2, depth);
      RenderReadsOnlyBranchIds(items[1..], e1, e2, depth);
    }
  }

  lemma {:induction false} ItemReadsOnlyBranchIds(item: MenuItem, e1: set<string>, e2: set<string>, depth: nat)
    requires e1 * BranchIdsOf(item) == e2 * BranchIdsOf(item)
    ensures RenderItem(item, e1, depth) == RenderItem(item, e2, depth)
    decreases item
  {
    AgreeOnSubset(e1, e2, BranchIdsOf(item), BranchIds(item.children));
    if IsBranch(item) {
      assert item.id in e1 <==> item.id in e1 * BranchIdsOf(item);
      assert item.id in e2 <==> item.id in e2 * BranchIdsOf(item);
    }
    RenderReadsOnlyBranchIds(item.children, e1, e2, depth + 1);
  }

  lemma AgreeOnSubset(e1: set<string>, e2: set<string>, big: set<string>, small: set<string>)
    requires small <= big && e1 * big == e2 * big
    ensures e1 * small == e2 * small
  {
    forall x | x in small
      ensures x in e1 <==> x in e2
    {
      assert x in e1 <==> x in e1 * big;
      assert x in e2 <==> x in e2 * big;
    }
  }
}

=== FILE: optional.dfy ===
/** Optional props and the JavaScript truthiness rules the components rely on. */
module Optional {

  /** An optional prop: `None` is JavaScript's `undefined`. */
  datatype Option<T> = None | Some(value: T) {

    /** The prop's value, or the destructuring default when it is undefined. */
    function GetOr(default: T): T {
      match this
      case Some(v) => v
      case None => default
    }
  }

  /** JavaScript truthiness of an optional string: defined and non-empty. */
  predicate Truthy(s: Option<string>) {
    s.Some? && s.value != ""
  }

  /** `a || b` where `b` is a string: `a`'s value when truthy, otherwise `b`. */
  function OrElse(a: Option<string>, b: string): string {
    if Truthy(a) then a.value else b
  }
}

=== FILE: sidebar_panel.dfy ===
/** The sliding sidebar: its open flag, its expansion set, the page-scroll lock
    it holds while open, and what a click on it does. */
module SidebarPanel {
  import opened Optional
  import opened MenuTree

  /** Flips the membership of `id` in the expansion set and nothing else. */
  function ToggleExpanded(expanded: set<string>, id: string): (r: set<string>)
    ensures id in r <==> id !in expanded
    ensures forall x :: x != id ==> (x in r <==> x in expanded)
  {
    if id in expanded then expanded - {id} else expanded + {id}
  }

  /** Toggling the same id twice restores the expansion set. */
  lemma ToggleTwice(expanded: set<string>, id: string)
    ensures ToggleExpanded(ToggleExpanded(expanded, id), id) == expanded
  {
  }

  /** Toggling an id that is not a branch of the tree changes no row. */
  lemma ToggleForeignIdKeepsRows(items: seq<MenuItem>, expanded: set<string>, id: string, depth: nat)
    requires id !in BranchIds(items)
    ensures RenderItems(items, ToggleExpanded(expanded, id), depth) == RenderItems(items, expanded, depth)
  {
    var toggled := ToggleExpanded(expanded, id);
    assert toggled * BranchIds(items) == expanded * BranchIds(items);
    RenderReadsOnlyBranchIds(items, toggled, expanded, depth);
  }

  /** The page body's `overflow` style; `Untouched` is whatever the page had
      before any sidebar effect ran. */
  datatype Overflow = Untouched | Hidden | Unset

  /** State of one mounted sidebar: the `isOpen` prop it last rendered with,
      its expansion set, and the body overflow its effect left behind. */
  datatype Panel = Panel(isOpen: bool, expanded: set<string>, bodyOverflow: Overflow)

  /** What the overflow effect writes for a given `isOpen`. */
  function OverflowFor(isOpen: bool): Overflow {
    if isOpen then Hidden else Unset
  }

  /** The page scroll is locked exactly while the sidebar is open. */
  predicate ScrollLockedIffOpen(p: Panel) {
    p.bodyOverflow == Hidden <==> p.isOpen
  }

  /** First render and the effect run that follows it: nothing expanded. */
  function Mount(isOpen: bool): (p: Panel)
    ensures p.isOpen == isOpen && p.expanded == {}
    ensures ScrollLockedIffOpen(p)
    ensures p.bodyOverflow == OverflowFor(isOpen) && p.bodyOverflow != Untouched
  {
    Panel(isOpen, {}, OverflowFor(isOpen))
  }

  /** A re-render with a new `isOpen` prop. The effect depends on `isOpen`
      only: when it changed, the cleanup unsets the overflow and the effect
      sets it again; otherwise nothing runs. The expansion set is kept. */
  function SetOpen(p: Panel, isOpen: bool): (q: Panel)
    ensures q.isOpen == isOpen && q.expanded == p.expanded
    ensures isOpen != p.isOpen ==> ScrollLockedIffOpen(q)
    ensures isOpen != p.isOpen ==> q.bodyOverflow == OverflowFor(isOpen)
    ensures ScrollLockedIffOpen(p) ==> ScrollLockedIffOpen(q)
    ensures isOpen == p.isOpen ==> q == p
  {
    if isOpen == p.isOpen then p
    else
      var cleaned := p.(bodyOverflow := Unset);
      cleaned.(isOpen := isOpen, bodyOverflow := OverflowFor(isOpen))
  }

  /** Unmounting runs the cleanup: the overflow left on the body is `unset`
      whatever state the sidebar was in. */
  function Unmount(p: Panel): (o: Overflow)
    ensures o == Unset
  {
    Unset
  }

  /** What clicking a menu row asks for. */
  datatype ClickAction = Toggle(id: string) | Navigate(href: string) | NoOp

  /** The row's click handler: a branch toggles and never navigates; a leaf
      with a non-empty `href` navigates to exactly it; any other leaf does
      nothing. */
  function ClickActionOf(item: MenuItem): (a: ClickAction)
    ensures IsBranch(item) <==> a.Toggle?
    ensures a.Toggle? ==> a.id == item.id
    ensures a.Navigate? <==> !IsBranch(item) && Truthy(item.href)
    ensures a.Navigate? ==> item.href == Some(a.href)
  {
    if IsBranch(item) then Toggle(item.id)
    else if Truthy(item.href) then Navigate(item.href.value)
    else NoOp
  }

  /** Intents the sidebar reports to its parent. */
  datatype Signal = CloseRequested | NavigationRequested(href: string)

  /** User input on the sidebar's elements. */
  datatype UiEvent = OverlayClicked | CloseButtonClicked | ItemClicked(item: MenuItem)

  /** The panel after an event and the intents it reported, in order. */
  datatype Reaction = Reaction(panel: Panel, signals: seq<Signal>)

  /** Dispatch of one click. When closed nothing is rendered, so no click
      reaches the sidebar. The overlay and the close button both call
      `onClose`; the sidebar never closes itself. */
  function Handle(p: Panel, ev: UiEvent): (r: Reaction)
    ensures r.panel.isOpen == p.isOpen && r.panel.bodyOverflow == p.bodyOverflow
    ensures !p.isOpen ==> r == Reaction(p, [])
    ensures p.isOpen && !ev.ItemClicked? ==> r == Reaction(p, [CloseRequested])
    ensures ev.ItemClicked? && p.isOpen && IsBranch(ev.item) ==>
              r.signals == [] && r.panel.expanded == ToggleExpanded(p.expanded, ev.item.id)
    ensures ev.ItemClicked? && !IsBranch(ev.item) ==> r.panel.expanded == p.expanded
    ensures ev.ItemClicked? && p.isOpen && !IsBranch(ev.item) ==>
              r.signals == (if Truthy(ev.item.href) then [NavigationRequested(ev.item.href.value)] else [])
  {
    if !p.isOpen then Reaction(p, [])
    else
      match ev
      case OverlayClicked => Reaction(p, [CloseRequested])
      case CloseButtonClicked => Reaction(p, [CloseRequested])
      case ItemClicked(item) =>
        match ClickActionOf(item)
        case Toggle(id) => Reaction(p.(expanded := ToggleExpanded(p.expanded, id)), [])
        case Navigate(href) => Reaction(p, [NavigationRequested(href)])
        case NoOp => Reaction(p, [])
  }

  /** The rows on screen: all of the tree's visible rows when open, none when
      closed. */
  function VisibleRows(p: Panel, items: seq<MenuItem>): (rows: seq<Row>)
    ensures !p.isOpen ==> rows == []
    ensures p.isOpen ==> AtDepth(rows, 0) == TopRows(items, p.expanded, 0)
    ensures p.isOpen ==> Nested(rows, 0, p.expanded)
    ensures p.isOpen ==> rows == ReachableRows(Outline(items, p.expanded, 0, true))
  {
    if p.isOpen then
      TopLevelRows(items, p.expanded, 0);
      RenderIsReachableOutline(items, p.expanded, 0, true);
      RenderItems(items, p.expanded, 0)
    else
      []
  }

  /** Inputs a mounted sidebar receives: a click, or a re-render by its
      parent with a new `isOpen`. */
  datatype Input = Ui(ev: UiEvent) | Rerender(isOpen: bool)

  /** The panel after a sequence of inputs, with every intent reported. */
  function Drive(p: Panel, inputs: seq<Input>): Reaction
    decreases |inputs|
  {
    if |inputs| == 0 then Reaction(p, [])
    else
      var first := match inputs[0]
        case Ui(ev) => Handle(p, ev)
        case Rerender(b) => Reaction(SetOpen(p, b), []);
      var rest := Drive(first.panel, inputs[1..]);
      Reaction(rest.panel, first.signals + rest.signals)
  }

  /** A click on a branch row: the only input that changes the expansion set. */
  predicate TogglesBranch(input: Input) {
    input.Ui? && input.ev.ItemClicked? && IsBranch(input.ev.item)
  }

  /** Without a branch click the expansion set is unchanged by any inputs:
      closing and reopening keep it, and the scroll lock tracks the open
      flag throughout. */
  lemma {:induction false} ExpansionChangesOnlyByToggle(p: Panel, inputs: seq<Input>)
    requires ScrollLockedIffOpen(p)
    requires forall k :: 0 <= k < |inputs| ==> !TogglesBranch(inputs[k])
    ensures Drive(p, inputs).panel.expanded == p.expanded
    ensures ScrollLockedIffOpen(Drive(p, inputs).panel)
    decreases |inputs|
  {
    if |inputs| > 0 {
      var q := match inputs[0]
        case Ui(ev) => Handle(p, ev).panel
        case Rerender(b) => SetOpen(p, b);
      assert q.expanded == p.expanded && ScrollLockedIffOpen(q);
      ExpansionChangesOnlyByToggle(q, inputs[1..]);
    }
  }

  /** Closing and reopening the sidebar shows the same rows as before. */
  lemma ReopenShowsSameRows(p: Panel, items: seq<MenuItem>)
    requires p.isOpen
    ensures VisibleRows(SetOpen(SetOpen(p, false), true), items) == VisibleRows(p, items)
  {
  }

  // A two-entry menu: a link and a branch with two links beneath it.
  const Dashboard := MenuItem("dashboard", "Dashboard", None, Some("/dashboard"), [])
  const EditProfile := MenuItem("edit-profile", "Edit Profile", None, Some("/profile/edit"), [])
  const AccountSettings := MenuItem("account-settings", "Account Settings", None, Some("/profile/settings"), [])
  const Profile := MenuItem("profile", "Profile", None, None, [EditProfile, AccountSettings])

  /** The example menu with its branch collapsed: the two entries only. */
  lemma ExampleCollapsed(e: set<string>)
    requires "profile" !in e
    ensures RenderItems([Dashboard, Profile], e, 0) == [RowOf(Dashboard, e, 0), RowOf(Profile, e, 0)]
  {
    assert [Dashboard, Profile][1..] == [Profile];
    assert RenderItems([Profile], e, 0) == RenderItem(Profile, e, 0) + RenderItems([], e, 0);
  }

  /** The example menu with its branch expanded: its children follow it. */
  lemma ExampleExpanded(e: set<string>)
    requires "profile" in e
    ensures RenderItems([Dashboard, Profile], e, 0)
         == [RowOf(Dashboard, e, 0), RowOf(Profile, e, 0), RowOf(EditProfile, e, 1), RowOf(AccountSettings, e, 1)]
  {
    assert [EditProfile, AccountSettings][1..] == [AccountSettings];
    assert RenderItems([AccountSettings], e, 1) == RenderItem(AccountSettings, e, 1) + RenderItems([], e, 1);
    assert RenderItems([EditProfile, AccountSettings], e, 1) == [RowOf(EditProfile, e, 1), RowOf(AccountSettings, e, 1)];
    assert [Dashboard, Profile][1..] == [Profile];
    assert RenderItems([Profile], e, 0) == RenderItem(Profile, e, 0) + RenderItems([], e, 0);
  }

  /** The example session's panels: opening it, a click on the branch
      expanding it, a second click collapsing it again, and a click on the
      link asking to navigate to its href. */
  lemma ExamplePanels()
    ensures SetOpen(Mount(false), true) == Panel(true, {}, Hidden)
    ensures Handle(Panel(true, {}, Hidden), ItemClicked(Profile)).panel == Panel(true, {"profile"}, Hidden)
    ensures Handle(Panel(true, {"profile"}, Hidden), ItemClicked(Profile)).panel == Panel(true, {}, Hidden)
    ensures Handle(Panel(true, {"profile"}, Hidden), ItemClicked(Dashboard)).signals == [NavigationRequested("/dashboard")]
  {
    assert {"profile"} - {"profile"} == {};
  }

  /** What the example session's panels show: the two entries while the
      branch is collapsed; its two children one level deeper, with 32 pixels
      of padding, once it is expanded. */
  lemma ExampleRows()
    ensures var rows := VisibleRows(Panel(true, {}, Hidden), [Dashboard, Profile]);
            |rows| == 2 && rows[0].depth == 0 && rows[1].depth == 0
    ensures var rows := VisibleRows(Panel(true, {"profile"}, Hidden), [Dashboard, Profile]);
            && |rows| == 4 && rows[1].depth == 0 && rows[2].depth == 1 && rows[3].depth == 1
            && rows[2].id == "edit-profile" && rows[2].paddingLeft == 32
  {
    ExampleCollapsed({});
    ExampleExpanded({"profile"});
  }
}

=== FILE: toast.dfy ===
/** One toast notification: its defaulted props, its fixed lookups, and the
    lifecycle of its auto-dismiss timer as a discrete automaton over integer
    milliseconds. */
module Toast {
  import opened Optional

  datatype ToastType = Success | Error | Warning | Info
  datatype Position = TopRight | TopLeft | BottomRight | BottomLeft | TopCenter | BottomCenter

  /** Identity of a close callback: two props hold the same function exactly
      when their handlers are equal. */
  datatype Handler = Handler(ref: nat)

  /** The props that carry behaviour; `None` is an omitted prop. */
  datatype ToastProps = ToastProps(
    id: Option<string>,
    kind: Option<ToastType>,
    title: Option<string>,
    message: string,
    duration: Option<int>,
    position: Option<Position>,
    showCloseButton: Option<bool>,
    onClose: Option<Handler>)

  const DefaultDuration := 5000

  function KindOf(p: ToastProps): ToastType { p.kind.GetOr(Info) }
  function DurationOf(p: ToastProps): int { p.duration.GetOr(DefaultDuration) }
  predicate CloseButtonShown(p: ToastProps) { p.showCloseButton.GetOr(true) }
  predicate TitleShown(p: ToastProps) { Truthy(p.title) }

  /** The progress bar is drawn exactly when the toast dismisses itself. */
  predicate ProgressBarShown(p: ToastProps) { DurationOf(p) > 0 }

  datatype IconName = CheckCircle | XCircle | AlertTriangle | InfoCircle

  /** The hue of a colour class; the class strings themselves are styling. */
  datatype Hue = Green | Red | Yellow | Blue

  function IconOf(k: ToastType): IconName {
    match k
    case Success => CheckCircle
    case Error => XCircle
    case Warning => AlertTriangle
    case Info => InfoCircle
  }

  /** Hue of the toast's background, border and text classes. */
  function PanelHue(k: ToastType): Hue {
    match k
    case Success => Green
    case Error => Red
    case Warning => Yellow
    case Info => Blue
  }

  /** Hue of the icon's class. */
  function IconHue(k: ToastType): Hue {
    match k
    case Success => Green
    case Error => Red
    case Warning => Yellow
    case Info => Blue
  }

  /** Omitted props: an `info` toast that lasts 5 seconds with a close button. */
  lemma Defaults(p: ToastProps)
    requires p.kind.None? && p.duration.None? && p.showCloseButton.None?
    ensures KindOf(p) == Info && IconOf(KindOf(p)) == InfoCircle
    ensures DurationOf(p) == 5000 && ProgressBarShown(p) && CloseButtonShown(p)
  {
  }

  /** The three lookups are total, agree on the hue, and tell the four types
      apart. */
  lemma LookupsAgree(k: ToastType, l: ToastType)
    ensures PanelHue(k) == IconHue(k)
    ensures IconOf(k) == IconOf(l) <==> k == l
    ensures PanelHue(k) == PanelHue(l) <==> k == l
  {
  }

  /** The toast's timer: none scheduled, pending until `deadline`, fired, or
      cleared before it fired. */
  datatype Timer = NoTimer | Pending(deadline: int) | Fired | Cancelled

  /** Why `onClose` was called. */
  datatype Cause = TimerExpired | CloseButton

  /** One call of `onClose(id)`. */
  datatype CloseCall = CloseCall(handler: Handler, id: Option<string>, cause: Cause)

  /** A toast on screen: its props, its timer, and whether it is mounted. */
  datatype Instance = Instance(props: ToastProps, timer: Timer, mounted: bool)

  /** What happens to a toast: the clock reaches `now`, its close button is
      clicked, its parent re-renders it with new props at time `now`, or it
      is removed. */
  datatype Event = Tick(now: int) | CloseClicked | Rerender(props: ToastProps, now: int) | Unmount

  datatype Step = Step(inst: Instance, calls: seq<CloseCall>)

  /** The effect: a timer for `duration` milliseconds exactly when
      `duration > 0`. */
  function Schedule(p: ToastProps, now: int): (t: Timer)
    ensures t.Pending? <==> DurationOf(p) > 0
    ensures t.Pending? ==> t.deadline == now + DurationOf(p)
    ensures !t.Pending? ==> t == NoTimer
  {
    if DurationOf(p) > 0 then Pending(now + DurationOf(p)) else NoTimer
  }

  /** The effect's cleanup: a pending timer is cleared; clearing a timer that
      already fired changes nothing. */
  function Cleanup(t: Timer): (u: Timer)
    ensures !u.Pending?
    ensures t.Pending? ==> u == Cancelled
    ensures !t.Pending? ==> u == t
  {
    if t.Pending? then Cancelled else t
  }

  /** First render at time `now` and the effect that follows it. */
  function Mount(p: ToastProps, now: int): (inst: Instance)
    ensures inst.mounted && inst.props == p
    ensures inst.timer.Pending? <==> ProgressBarShown(p)
  {
    Instance(p, Schedule(p, now), true)
  }

  /** The effect's dependencies. */
  function Deps(p: ToastProps): (int, Option<string>, Option<Handler>) {
    (DurationOf(p), p.id, p.onClose)
  }

  /** `onClose?.(id)`: one call when a handler is present, none otherwise. */
  function Notify(p: ToastProps, cause: Cause): (calls: seq<CloseCall>)
    ensures |calls| <= 1
    ensures |calls| == 1 <==> p.onClose.Some?
    ensures forall c :: c in calls ==> c == CloseCall(p.onClose.value, p.id, cause)
  {
    if p.onClose.Some? then [CloseCall(p.onClose.value, p.id, cause)] else []
  }

  /** One event. A pending timer fires once its deadline is reached and calls
      `onClose` with the toast's own id. The close button, when drawn, calls
      it too and leaves the timer alone. A re-render that changes `duration`,
      `id` or `onClose` clears the timer and schedules a new one from `now`;
      any other re-render only replaces the props. Removal clears the timer;
      an unmounted toast reacts to nothing. */
  function StepOf(inst: Instance, ev: Event): (s: Step)
    ensures !inst.mounted ==> s == Step(inst, [])
    ensures s.inst.mounted ==> inst.mounted
    ensures ev.Unmount? ==> !s.inst.mounted && s.calls == []
    ensures ev.Unmount? && inst.mounted ==> !s.inst.timer.Pending?
    ensures ev.Rerender? && inst.mounted ==> s.inst.props == ev.props && s.inst.mounted && s.calls == []
    ensures ev.CloseClicked? && inst.mounted ==>
              && s.inst == inst
              && s.calls == (if CloseButtonShown(inst.props) && inst.props.onClose.Some?
                             then [CloseCall(inst.props.onClose.value, inst.props.id, CloseButton)] else [])
    ensures ev.Rerender? && inst.mounted && Deps(ev.props) == Deps(inst.props) ==> s.inst.timer == inst.timer
    ensures ev.Rerender? && inst.mounted && Deps(ev.props) != Deps(inst.props) ==> s.inst.timer == Schedule(ev.props, ev.now)
    ensures forall c :: c in s.calls ==> c.id == s.inst.props.id && s.inst.props.onClose == Some(c.handler)
    ensures |s.calls| <= 1
  {
    if !inst.mounted then Step(inst, [])
    else
      match ev
      case Tick(now) =>
        if inst.timer.Pending? && now >= inst.timer.deadline then
          Step(inst.(timer := Fired), Notify(inst.props, TimerExpired))
        else
          Step(inst, [])
      case CloseClicked =>
        if CloseButtonShown(inst.props) then Step(inst, Notify(inst.props, CloseButton)) else Step(inst, [])
      case Rerender(q, now) =>
        if Deps(q) == Deps(inst.props) then
          Step(inst.(props := q), [])
        else
          // the old timer is cleared and the new effect's timer replaces it
          Step(Instance(q, Schedule(q, now), true), [])
      case Unmount =>
        Step(inst.(timer := Cleanup(inst.timer), mounted := false), [])
  }

  /** A sequence of events, with every `onClose` call in order. */
  function Run(inst: Instance, evs: seq<Event>): Step
    decreases |evs|
  {
    if |evs| == 0 then Step(inst, [])
    else
      var first := StepOf(inst, evs[0]);
      var rest := Run(first.inst, evs[1..]);
      Step(rest.inst, first.calls + rest.calls)
  }

  /** Number of calls the timer made. */
  function TimerCalls(calls: seq<CloseCall>): nat {
    if |calls| == 0 then 0
    else (if calls[0].cause == TimerExpired then 1 else 0) + TimerCalls(calls[1..])
  }

  lemma {:induction false} TimerCallsConcat(a: seq<CloseCall>, b: seq<CloseCall>)
    ensures TimerCalls(a + b) == TimerCalls(a) + TimerCalls(b)
  {
    if |a| == 0 {
      assert a + b == b;
    } else {
      assert (a + b)[1..] == a[1..] + b;
      TimerCallsConcat(a[1..], b);
    }
  }

  /** A timer that can still fire. */
  predicate Armed(inst: Instance) {
    inst.mounted && inst.timer.Pending?
  }

  /** Without re-renders, the timer calls `onClose` at most once over any
      sequence of events, and not at all when it is not armed. */
  lemma {:induction false} TimerFiresAtMostOnce(inst: Instance, evs: seq<Event>)
    requires forall k :: 0 <= k < |evs| ==> !evs[k].Rerender?
    ensures TimerCalls(Run(inst, evs).calls) <= (if Armed(inst) then 1 else 0)
    decreases |evs|
  {
    if |evs| > 0 {
      var first := StepOf(inst, evs[0]);
      TimerFiresAtMostOnce(first.inst, evs[1..]);
      TimerCallsConcat(first.calls, Run(first.inst, evs[1..]).calls);
      if first.calls != [] && first.calls[0].cause == TimerExpired {
        assert !Armed(first.inst);
      }
      assert TimerCalls(first.calls) <= (if Armed(inst) && !Armed(first.inst) then 1 else 0) by {
        if |first.calls| == 1 {
          assert first.calls == [first.calls[0]];
        }
      }
    }
  }

  /** A toast whose duration is not positive, before and after any re-render,
      never closes itself however much time passes. */
  lemma {:induction false} NoSelfCloseWithoutDuration(inst: Instance, evs: seq<Event>)
    requires !Armed(inst)
    requires forall k :: 0 <= k < |evs| && evs[k].Rerender? ==> DurationOf(evs[k].props) <= 0
    ensures TimerCalls(Run(inst, evs).calls) == 0
    decreases |evs|
  {
    if |evs| > 0 {
      var first := StepOf(inst, evs[0]);
      assert TimerCalls(first.calls) == 0 by {
        if |first.calls| == 1 {
          assert first.calls == [first.calls[0]];
        }
      }
      assert !Armed(first.inst);
      NoSelfCloseWithoutDuration(first.inst, evs[1..]);
      TimerCallsConcat(first.calls, Run(first.inst, evs[1..]).calls);
    }
  }

  /** After removal no callback ever fires. */
  lemma {:induction false} SilentAfterUnmount(inst: Instance, evs: seq<Event>)
    requires !inst.mounted
    ensures Run(inst, evs) == Step(inst, [])
    decreases |evs|
  {
    if |evs| > 0 {
      SilentAfterUnmount(inst, evs[1..]);
    }
  }

  /** Events that come from the clock and the toast itself: ticks and close
      clicks, with no re-render and no removal. */
  predicate Local(ev: Event) {
    ev.Tick? || ev.CloseClicked?
  }

  /** Some tick of `evs` reaches `deadline`. */
  predicate Reached(evs: seq<Event>, deadline: int) {
    exists k :: 0 <= k < |evs| && evs[k].Tick? && evs[k].now >= deadline
  }

  /** Ticks and close clicks keep the props, and every call they cause
      carries the toast's own id and handler. */
  lemma {:induction false} LocalRunKeepsProps(inst: Instance, evs: seq<Event>)
    requires forall k :: 0 <= k < |evs| ==> Local(evs[k])
    ensures Run(inst, evs).inst.props == inst.props
    ensures forall c :: c in Run(inst, evs).calls ==> c.id == inst.props.id && inst.props.onClose == Some(c.handler)
    decreases |evs|
  {
    if |evs| > 0 {
      var first := StepOf(inst, evs[0]);
      assert first.inst.props == inst.props;
      LocalRunKeepsProps(first.inst, evs[1..]);
    }
  }

  /** A pending timer makes exactly one call when some tick reaches its
      deadline and none otherwise, whatever ticks and close clicks come. */
  lemma {:induction false} PendingFiresIffReached(inst: Instance, evs: seq<Event>)
    requires inst.mounted && inst.timer.Pending? && inst.props.onClose.Some?
    requires forall k :: 0 <= k < |evs| ==> Local(evs[k])
    ensures TimerCalls(Run(inst, evs).calls) == (if Reached(evs, inst.timer.deadline) then 1 else 0)
    decreases |evs|
  {
    if |evs| > 0 {
      var dl := inst.timer.deadline;
      var first := StepOf(inst, evs[0]);
      var rest := Run(first.inst, evs[1..]);
      TimerCallsConcat(first.calls, rest.calls);
      if evs[0].Tick? && evs[0].now >= dl {
        assert first.calls == [CloseCall(inst.props.onClose.value, inst.props.id, TimerExpired)];
        assert TimerCalls(first.calls) == 1;
        TimerFiresAtMostOnce(first.inst, evs[1..]);
        assert Reached(evs, dl);
      } else {
        assert first.inst == inst;
        assert TimerCalls(first.calls) == 0 by {
          if |first.calls| == 1 {
            assert first.calls == [first.calls[0]];
          }
        }
        PendingFiresIffReached(inst, evs[1..]);
        assert Reached(evs, dl) <==> Reached(evs[1..], dl) by {
          if Reached(evs, dl) {
            var k :| 0 <= k < |evs| && evs[k].Tick? && evs[k].now >= dl;
            assert k > 0 && evs[1..][k - 1] == evs[k];
          }
          if Reached(evs[1..], dl) {
            var k :| 0 <= k < |evs[1..]| && evs[1..][k].Tick? && evs[1..][k].now >= dl;
            assert evs[k + 1] == evs[1..][k];
          }
        }
      }
    }
  }

  /** A toast with duration `D > 0` and a handler, mounted at `t0`, under any
      ticks and close clicks: the timer calls `onClose` exactly once when some
      tick reaches `t0 + D` and never otherwise, so every prefix before the
      first such tick is silent; every call carries the toast's own id. */
  lemma TimerFiresOnceWithOwnId(p: ToastProps, t0: int, evs: seq<Event>, n: nat)
    requires ProgressBarShown(p) && p.onClose.Some?
    requires forall k :: 0 <= k < |evs| ==> Local(evs[k])
    requires n <= |evs| && !Reached(evs[..n], t0 + DurationOf(p))
    ensures TimerCalls(Run(Mount(p, t0), evs).calls) == (if Reached(evs, t0 + DurationOf(p)) then 1 else 0)
    ensures TimerCalls(Run(Mount(p, t0), evs[..n]).calls) == 0
    ensures forall c :: c in Run(Mount(p, t0), evs).calls ==> c.id == p.id && c.handler == p.onClose.value
  {
    PendingFiresIffReached(Mount(p, t0), evs);
    PendingFiresIffReached(Mount(p, t0), evs[..n]);
    LocalRunKeepsProps(Mount(p, t0), evs);
  }

  /** A removed toast's timer never fires, however late the clock runs. */
  lemma RemovedBeforeDeadlineNeverFires(p: ToastProps, t0: int, evs: seq<Event>)
    ensures TimerCalls(Run(Mount(p, t0), [Unmount] + evs).calls) == 0
  {
    var gone := StepOf(Mount(p, t0), Unmount).inst;
    assert ([Unmount] + evs)[1..] == evs;
    SilentAfterUnmount(gone, evs);
  }

  /** After any ticks, clicks and re-renders that do not remove it, the close
      button still calls `onClose` with the toast's current id exactly when it
      is drawn and a handler is present, and the click leaves the timer alone. */
  lemma CloseButtonCallsOwnId(inst: Instance, evs: seq<Event>)
    requires inst.mounted
    requires forall k :: 0 <= k < |evs| ==> !evs[k].Unmount?
    ensures var now := Run(inst, evs).inst;
            var p := now.props;
            && now.mounted
            && StepOf(now, CloseClicked)
               == Step(now, if CloseButtonShown(p) && p.onClose.Some? then [CloseCall(p.onClose.value, p.id, CloseButton)] else [])
  {
    StaysMounted(inst, evs);
  }

  /** Without removal a mounted toast stays mounted, whatever ticks, clicks
      and re-renders come. */
  lemma {:induction false} StaysMounted(inst: Instance, evs: seq<Event>)
    requires inst.mounted
    requires forall k :: 0 <= k < |evs| ==> !evs[k].Unmount?
    ensures Run(inst, evs).inst.mounted
    decreases |evs|
  {
    if |evs| > 0 {
      var first := StepOf(inst, evs[0]);
      assert first.inst.mounted;
      StaysMounted(first.inst, evs[1..]);
    }
  }

  /** A re-render with the same duration, id and handler keeps the timer; one
      with a new handler restarts it from the re-render's time. */
  lemma RerenderRestartsOnlyOnNewDeps(inst: Instance, q: ToastProps, now: int)
    requires inst.mounted
    ensures Deps(q) == Deps(inst.props) ==> StepOf(inst, Rerender(q, now)).inst.timer == inst.timer
    ensures Deps(q) != Deps(inst.props) ==> StepOf(inst, Rerender(q, now)).inst.timer == Schedule(q, now)
    ensures Deps(q) != Deps(inst.props) && DurationOf(q) > 0 ==>
              StepOf(inst, Rerender(q, now)).inst.timer == Pending(now + DurationOf(q))
    ensures Deps(q) != Deps(inst.props) && DurationOf(q) <= 0 ==> !Armed(StepOf(inst, Rerender(q, now)).inst)
  {
  }

  /** An armed toast re-rendered with new dependencies and a non-positive
      duration has its pending timer cleared and gets no new one: no later
      tick, close click or re-render that keeps the duration non-positive
      makes a timer call. */
  lemma RerenderToNoDurationCancels(inst: Instance, q: ToastProps, now: int, evs: seq<Event>)
    requires Armed(inst) && Deps(q) != Deps(inst.props) && DurationOf(q) <= 0
    requires forall k :: 0 <= k < |evs| && evs[k].Rerender? ==> DurationOf(evs[k].props) <= 0
    ensures TimerCalls(Run(inst, [Rerender(q, now)] + evs).calls) == 0
  {
    var evs' := [Rerender(q, now)] + evs;
    var first := StepOf(inst, Rerender(q, now));
    assert first.calls == [] && first.inst.timer == NoTimer;
    assert evs'[0] == Rerender(q, now) && evs'[1..] == evs;
    var rest := Run(first.inst, evs);
    assert Run(inst, evs').calls == first.calls + rest.calls;
    NoSelfCloseWithoutDuration(first.inst, evs);
    assert first.calls + rest.calls == rest.calls;
  }

  /** The title heading is drawn exactly for a non-empty `title`; an omitted
      title draws none. */
  lemma TitleOnlyWhenGiven(p: ToastProps)
    ensures TitleShown(p) <==> p.title.Some? && p.title.value != ""
    ensures p.title.None? ==> !TitleShown(p)
  {
  }
}

=== FILE: toast_container.dfy ===
/** The stack of toasts anchored at one corner or edge of the screen. */
module ToastContainer {
  import opened Optional
  import opened Toast

  datatype Edge = TopEdge | BottomEdge
  datatype Align = LeftAligned | RightAligned | Centered

  /** Where the stack sits; the class strings that place it are styling. */
  datatype Anchor = Anchor(edge: Edge, align: Align)

  const DefaultPosition := TopRight

  function PositionOf(position: Option<Position>): Position {
    position.GetOr(DefaultPosition)
  }

  /** The position lookup, defined for all six positions. */
  function AnchorOf(p: Position): Anchor {
    match p
    case TopRight => Anchor(TopEdge, RightAligned)
    case TopLeft => Anchor(TopEdge, LeftAligned)
    case BottomRight => Anchor(BottomEdge, RightAligned)
    case BottomLeft => Anchor(BottomEdge, LeftAligned)
    case TopCenter => Anchor(TopEdge, Centered)
    case BottomCenter => Anchor(BottomEdge, Centered)
  }

  /** The six positions are six distinct anchors, every anchor is one of
      them, and an omitted position is the top right corner. */
  lemma AnchorsAreExact(p: Position, q: Position, a: Anchor)
    ensures AnchorOf(p) == AnchorOf(q) <==> p == q
    ensures exists r :: AnchorOf(r) == a
    ensures AnchorOf(PositionOf(None)) == Anchor(TopEdge, RightAligned)
  {
    var r := match a
      case Anchor(TopEdge, RightAligned) => TopRight
      case Anchor(TopEdge, LeftAligned) => TopLeft
      case Anchor(BottomEdge, RightAligned) => BottomRight
      case Anchor(BottomEdge, LeftAligned) => BottomLeft
      case Anchor(TopEdge, Centered) => TopCenter
      case Anchor(BottomEdge, Centered) => BottomCenter;
    assert AnchorOf(r) == a;
  }

  /** The props one entry is drawn with: all of its own fields, except that
      its close callback is the container's `onRemove`. */
  function Entry(toast: ToastProps, onRemove: Handler): ToastProps {
    toast.(onClose := Some(onRemove))
  }

  /** `toasts.map(...)`: one toast per entry, in list order. */
  function RenderToasts(toasts: seq<ToastProps>, onRemove: Handler): (shown: seq<ToastProps>)
    ensures |shown| == |toasts|
    ensures forall i :: 0 <= i < |toasts| ==> shown[i] == Entry(toasts[i], onRemove)
  {
    if |toasts| == 0 then [] else [Entry(toasts[0], onRemove)] + RenderToasts(toasts[1..], onRemove)
  }

  /** What the container draws. */
  datatype View = View(anchor: Anchor, shown: seq<ToastProps>)

  function Render(toasts: seq<ToastProps>, position: Option<Position>, onRemove: Handler): (v: View)
    ensures v.anchor == AnchorOf(PositionOf(position))
    ensures |v.shown| == |toasts|
    ensures forall i :: 0 <= i < |toasts| ==> v.shown[i] == Entry(toasts[i], onRemove)
  {
    View(AnchorOf(PositionOf(position)), RenderToasts(toasts, onRemove))
  }

  /** Rendering distributes over concatenation: the stack keeps arrival
      order, so a newly appended toast is drawn after all older ones. */
  lemma {:induction false} RenderKeepsOrder(a: seq<ToastProps>, b: seq<ToastProps>, onRemove: Handler)
    ensures RenderToasts(a + b, onRemove) == RenderToasts(a, onRemove) + RenderToasts(b, onRemove)
  {
    if |a| == 0 {
      assert a + b == b;
    } else {
      assert (a + b)[0] == a[0];
      assert (a + b)[1..] == a[1..] + b;
      RenderKeepsOrder(a[1..], b, onRemove);
    }
  }

  /** Every drawn toast closes through `onRemove` with its entry's own id and
      keeps the entry's other fields. */
  lemma EntriesCloseThroughOnRemove(toasts: seq<ToastProps>, onRemove: Handler, i: nat)
    requires i < |toasts|
    ensures var e := RenderToasts(toasts, onRemove)[i];
            && e.onClose == Some(onRemove) && e.id == toasts[i].id
            && e.(onClose := toasts[i].onClose) == toasts[i]
  {
  }
}
